=== FILE: README.md ===
# database_handler in Dafny

A model of the PHP data-access layer `SamsmithKruz\Database`. It covers
the `Database` facade and its four handlers:

- MySQL over PDO
- PostgreSQL over PDO
- MongoDB over `MongoDB\Client`
- Redis over Predis

The native clients are not modelled. Each call into one is an oracle
(`Outcome<T>`: `Ok(value)` or `Fail(message)`) passed in as an argument.
Each handler method returns what the PHP method would give its caller
(`Result<T>`: `Returns(value)` or `Throws(message)`). The stateful handlers
also return the handler afterwards and the native calls made, in order.

Modules:

- `Common`: PHP values, ordered arrays, config look-ups (`??` and `isset`),
  string interpolation, and the PDO DSN shape.
- `Text`: join, split and lower-casing. Its lemma `SplitJoin` shows that
  splitting and re-joining a string gives it back; `MySql.InsertSqlFromPieces`
  uses it to rebuild the INSERT text from its pieces.
- `Placeholders`: which key each positional `?` of the generated SQL
  belongs to.
- `MySql`: the DSN, the four SQL builders, and the mapping of `rowCount() > 0`.
- `Postgres`: a state machine holding at most one current statement. It
  covers type inference in `bind`, fetch-after-execute, transaction and
  savepoint SQL, error prefixes and the fallbacks for missing errors.
- `Mongo`: CRUD operations that absorb failures into `lastError`,
  `errorInfo` truthiness, and transactions that open a new session on
  every call.
- `Redis`: each method as the trace of Predis commands it sends.
- `Database`: driver selection and forwarding through `__call`.

## Model

| member | source | states |
|---|---|---|
| Database.WithDriver | src/Database.php:37-39 | a missing or null `driver` becomes `'mysql'`; every other key is kept |
| Database.Choose | src/Database.php:41-58 | the string `'mysql'` picks MySQL and `'pgsql'` picks PostgreSQL; no other string matches; of the other values only `true` matches, and it picks MySQL, the first case |
| Database.New | src/Database.php:22-58 | unsupported driver → `Driver X is not supported.` with no handler built; otherwise the chosen handler's constructor outcome, its own error message passed through; on success exactly the handler that `MySql.Connect` or `Postgres.Connect` builds from the config with its driver defaulted |
| Database.Call | src/Database.php:69-77 | a missing method → `Method M does not exist on the handler.` with the handler untouched; otherwise the handler's result and new state come back unchanged |
| Database.MissingDriverIsMySql | src/Database.php:37-45 | a config with no or a null driver behaves exactly like an explicit `'mysql'` |
| Database.OtherDriversRefused | src/Database.php:56-57 | any identifier other than `mysql`/`pgsql` is refused with its name in the message, whatever the connection would do |
| Database.MongoDbRefused | src/Database.php:52-57 | `'mongodb'` is refused: its case is commented out |
| Database.MissingMethodCallsNothing | src/Database.php:71-73 | for a missing method the outcome does not depend on what the handler would do, so the handler is never called |
| Database.HandlerKindFixed | src/Database.php:76 | forwarding never replaces the handler with one of the other kind |
| Database.MethodLookupIgnoresCase | src/Database.php:71 | a method is found exactly when its lower-cased name is found |
| Database.CloseFailsThroughFacade | src/Database.php:69-77 | `close` through the facade reaches the MySQL handler and its `TypeError` comes back to the caller, handler unchanged |
| Database.QueryChainsOnHandler | src/Database.php:76 | PostgreSQL `query` through the facade returns the handler itself, holding the new statement |
| Database.BindOnlyOnPostgres | src/Database.php:71-73 | `bind` is missing on MySQL and found on PostgreSQL in any letter case |
| Common.PdoDsnFields | src/Drivers/MySQLDatabase.php:21 | a DSN whose field values contain no `;` splits back into exactly its three fields, and it ends in `;port=` plus the port |
| Placeholders.PairsAssignments | src/Drivers/MySQLDatabase.php:49-50 | in joined `key = ?` items, the text before the i-th `?` ends with `key_i = `, followed by whatever the rest pairs with |
| Placeholders.ItemPieces | src/Drivers/MySQLDatabase.php:49-50 | joined `key = ?` items with `?`-free keys cut at their `?` into exactly `k1 = `, then separator plus `ki = ` for each later key, the text after the last item being cut as before |
| Placeholders.GluedItemsShape | src/Drivers/MySQLDatabase.php:49-52 | a clause prefix glued to those item heads plus the empty tail gives, element by element, prefix plus `k1 = `, separator plus `ki = `, and `""` last |
| Placeholders.SplitMarks | src/Drivers/MySQLDatabase.php:41 | n `?` joined by a separator leave the separator between consecutive placeholders and nothing before the first |
| MySql.ConnectionString | src/Drivers/MySQLDatabase.php:21 | the DSN splits into `mysql:host=H`, `dbname=D` and `port=P`, read from `host`, `database` and `port`; with no port it ends in a bare `;port=` (there is no default) |
| MySql.Connect | src/Drivers/MySQLDatabase.php:13-28 | success keeps the config and DSN; failure → `MySQL Connection Failed: ` plus PDO's message |
| MySql.Query | src/Drivers/MySQLDatabase.php:31-36 | the executed statement is the given SQL with the given parameters; a PDO failure propagates with its own message |
| MySql.Affected | src/Drivers/MySQLDatabase.php:44 | true iff the row count is positive; a failure propagates unchanged |
| MySql.InsertSqlPieces | src/Drivers/MySQLDatabase.php:40-42 | the INSERT text has one `?` per column, separated by `, ` and closed by `)` |
| MySql.InsertSqlFromPieces | src/Drivers/MySQLDatabase.php:40-42 | conversely, joining those pieces with `?` gives back the INSERT text, so it is exactly the column head, the placeholders and `)`; with no columns it is the head and `)` |
| MySql.InsertStatement | src/Drivers/MySQLDatabase.php:40-44 | the parameters are the data values in key order; with `?`-free identifiers there are exactly as many `?` as keys, cut into the head, `, ` separators and `)`; with no data the text is exactly `INSERT INTO t () VALUES ()` |
| MySql.Insert | src/Drivers/MySQLDatabase.php:38-45 | sends the INSERT statement; returns true iff the row count is positive |
| MySql.UpdateSqlPairs | src/Drivers/MySQLDatabase.php:49-52 | each `?` of the UPDATE text pairs, in order, with the data keys and then the condition keys |
| MySql.UpdateStatement | src/Drivers/MySQLDatabase.php:49-53 | the i-th `?` belongs to the i-th key of data then conditions, and the i-th parameter is that key's value; as many `?` as parameters; empty conditions leave a dangling ` WHERE `; with `?`-free names the text is exactly `UpdatePieces` joined by `?` |
| MySql.UpdateSqlExactPieces | src/Drivers/MySQLDatabase.php:49-52 | cutting the UPDATE text at its `?` gives exactly `UPDATE t SET k1 = `, then `, ki = ` for each further data key, then ` WHERE c1 = ` (glued to the SET text when there is no data), ` AND ci = ` for each further condition key, and a final empty piece |
| MySql.UpdatePiecesShape | src/Drivers/MySQLDatabase.php:49-52 | the same pieces stated element by element: verb, table and `SET` in the first piece, the `, ` and ` AND ` separators, the ` WHERE ` keyword and the empty tail |
| MySql.Update | src/Drivers/MySQLDatabase.php:47-54 | sends the UPDATE statement; returns true iff the row count is positive |
| MySql.DeleteSqlPairs | src/Drivers/MySQLDatabase.php:58-59 | each `?` of the DELETE text pairs, in order, with a condition key |
| MySql.DeleteStatement | src/Drivers/MySQLDatabase.php:58-61 | placeholders pair with the condition keys and parameters with their values; empty conditions leave a dangling ` WHERE `; with `?`-free names the text is exactly `DeletePieces` joined by `?` |
| MySql.DeleteSqlExactPieces | src/Drivers/MySQLDatabase.php:58-59 | cutting the DELETE text at its `?` gives exactly `DELETE FROM t WHERE c1 = `, then ` AND ci = ` for each further condition key, and a final empty piece |
| MySql.DeletePiecesShape | src/Drivers/MySQLDatabase.php:58-59 | the same pieces element by element; with no conditions the single piece is `DELETE FROM t WHERE ` |
| MySql.Delete | src/Drivers/MySQLDatabase.php:56-62 | sends the DELETE statement; returns true iff the row count is positive |
| MySql.SelectSqlPairs | src/Drivers/MySQLDatabase.php:66-68 | each `?` of the SELECT text pairs, in order, with a condition key |
| MySql.SelectStatement | src/Drivers/MySQLDatabase.php:66-70 | placeholders pair with the condition keys; without conditions there is no WHERE and the text ends in ` FROM table ` with its trailing space; with `?`-free names the text is exactly `SelectPieces` joined by `?` |
| MySql.SelectSqlExactPieces | src/Drivers/MySQLDatabase.php:66-68 | cutting the SELECT text at its `?` gives exactly `SELECT cols FROM t WHERE c1 = `, then ` AND ci = ` for each further condition key, and a final empty piece; with no conditions the one piece `SELECT cols FROM t ` |
| MySql.SelectPiecesShape | src/Drivers/MySQLDatabase.php:66-68 | the same pieces element by element: the column list joined by `, `, the `FROM` and `WHERE` keywords and the ` AND ` separator |
| MySql.Select | src/Drivers/MySQLDatabase.php:64-71 | sends the SELECT, with `['*']` when the columns are omitted; returns the fetched rows |
| MySql.SelectDefaultColumns | src/Drivers/MySQLDatabase.php:64-68 | with the columns omitted the statement starts with `SELECT * FROM ` |
| MySql.BeginTransaction | src/Drivers/MySQLDatabase.php:73-76 | calls exactly PDO's `beginTransaction`; returns iff it succeeds, and its failure propagates unwrapped |
| MySql.CommitTransaction | src/Drivers/MySQLDatabase.php:78-81 | calls exactly PDO's `commit`; returns iff it succeeds, and its failure propagates unwrapped |
| MySql.RollbackTransaction | src/Drivers/MySQLDatabase.php:83-86 | calls exactly PDO's `rollBack`; returns iff it succeeds, and its failure propagates unwrapped |
| MySql.Close | src/Drivers/MySQLDatabase.php:88-91 | always throws the `TypeError` for assigning null to the `PDO`-typed `$connection`, and leaves the handler as it was |
| Postgres.ConnectionString | src/Drivers/PostgreSQLDatabase.php:26-29 | the DSN splits into `pgsql:host=H`, `dbname=D` and `port=P`, the port coalesced to 5432 |
| Postgres.DefaultPortDsn | src/Drivers/PostgreSQLDatabase.php:26-29 | with no port, or a null one, the DSN ends in `;port=5432` |
| Postgres.Connect | src/Drivers/PostgreSQLDatabase.php:20-41 | records host, user, pass, dbname and the defaulted port, with no statement, and opens PDO with the DSN built from the recorded host, dbname and port; failure → `Connection failed: ` plus PDO's message |
| Postgres.Query | src/Drivers/PostgreSQLDatabase.php:43-51 | on success the new statement replaces the current one and the handler itself is returned; on failure the old statement is kept and `Query preparation failed: ` is thrown |
| Postgres.InferredKind | src/Drivers/PostgreSQLDatabase.php:56-70 | INT iff the value is an integer, BOOL iff boolean, NULL iff null, and STR for everything else |
| Postgres.BoundKind | src/Drivers/PostgreSQLDatabase.php:56-72 | an explicit type passes through unchanged; a null type is inferred |
| Postgres.Bind | src/Drivers/PostgreSQLDatabase.php:53-78 | appends the binding and returns the handler; a failure → `Binding parameter failed: `; without a statement the engine's null-call error escapes |
| Postgres.Execute | src/Drivers/PostgreSQLDatabase.php:80-87 | returns PDO's boolean; failure → `Execution failed: ` |
| Postgres.ResultSet | src/Drivers/PostgreSQLDatabase.php:89-97 | executes before fetching all rows; a failed execute escapes as `Execution failed: `, a failed fetch as `Fetching result set failed: `; with no prepared statement it throws `Call to a member function execute() on null` and issues nothing |
| Postgres.Single | src/Drivers/PostgreSQLDatabase.php:99-107 | executes before fetching one row; no row → the `object` return-type error; a fetch failure → `Fetching single result failed: `; with no prepared statement it throws the call-on-null error and issues nothing |
| Postgres.StringReturn | src/Drivers/PostgreSQLDatabase.php:198 | a value returned through a `: string` declaration in coercive mode: a string passes, `false` becomes `""`, other scalars are converted as `(string)` converts them, and null or an array is a type error naming what was returned |
| Postgres.FetchColumn | src/Drivers/PostgreSQLDatabase.php:198-206 | executes before fetching the column, which defaults to 0; no row (PDO's `false`) → `""`; a NULL cell → the `string` return-type error; any other cell is returned as its string conversion; failure → `Fetching column failed: ` |
| Postgres.NoRowLooksLikeEmptyCell | src/Drivers/PostgreSQLDatabase.php:198-206 | `fetchColumn` gives the same answer for an exhausted result as for an empty-string cell |
| Postgres.FetchRow | src/Drivers/PostgreSQLDatabase.php:208-216 | executes before fetching the row; no row → the `array` return-type error; failure → `Fetching row failed: `; with no prepared statement it throws the call-on-null error and issues nothing |
| Postgres.RowCount | src/Drivers/PostgreSQLDatabase.php:109-112 | PDO's count, or its failure, unwrapped |
| Postgres.BeginTransaction | src/Drivers/PostgreSQLDatabase.php:114-122 | sends `SET TRANSACTION ISOLATION LEVEL L` (L defaults to `SERIALIZABLE`), then begins; either failure → `Starting transaction failed: `; the `exec` outcome is a row count and the `beginTransaction` outcome PDO's boolean |
| Postgres.CommitTransaction | src/Drivers/PostgreSQLDatabase.php:124-131 | commits; failure → `Committing transaction failed: ` |
| Postgres.RollbackTransaction | src/Drivers/PostgreSQLDatabase.php:133-140 | rolls back; failure → `Rolling back transaction failed: ` |
| Postgres.LastInsertId | src/Drivers/PostgreSQLDatabase.php:142-145 | PDO's id, or its failure, unwrapped |
| Postgres.ErrorInfo | src/Drivers/PostgreSQLDatabase.php:147-150 | `['No statement initialized']` before any query; otherwise the statement's error array |
| Postgres.BeginSavepoint | src/Drivers/PostgreSQLDatabase.php:152-159 | sends exactly `SAVEPOINT n`; failure → `Creating savepoint failed: ` |
| Postgres.RollbackSavepoint | src/Drivers/PostgreSQLDatabase.php:161-168 | sends exactly `ROLLBACK TO SAVEPOINT n`; failure → `Rolling back to savepoint failed: ` |
| Postgres.ReleaseSavepoint | src/Drivers/PostgreSQLDatabase.php:170-177 | sends exactly `RELEASE SAVEPOINT n`; failure → `Releasing savepoint failed: ` |
| Postgres.GetVersion | src/Drivers/PostgreSQLDatabase.php:179-186 | the server version; failure → `Fetching PostgreSQL version failed: ` |
| Postgres.LastErrorCode | src/Drivers/PostgreSQLDatabase.php:188-191 | the SQLSTATE, with a null one cast to `""` |
| Postgres.LastErrorMessage | src/Drivers/PostgreSQLDatabase.php:193-196 | element 2 of the error array, or `No error message` when it is missing or null; an array there is the `string` return-type error, any other scalar its string conversion |
| Postgres.BindInfersKind | src/Drivers/PostgreSQLDatabase.php:56-72 | an untyped binding stored on the statement carries the kind that matches the value, in both directions |
| Postgres.QueryReplacesStatement | src/Drivers/PostgreSQLDatabase.php:46 | after a successful `query` nothing of the previous statement survives |
| Postgres.QueryThenBind | src/Drivers/PostgreSQLDatabase.php:43-78 | `query` then `bind` leaves exactly one binding, and both return the handler |
| Postgres.IsolationSetOutsideBlock | src/Drivers/PostgreSQLDatabase.php:117-118 | as written, no `SET TRANSACTION` is preceded by the opening of a transaction |
| Postgres.BeginTransactionInBlock | src/Drivers/PostgreSQLDatabase.php:114-122 | the corrected method begins first, then sets the level; same messages |
| Postgres.IsolationSetInsideBlock | src/Drivers/PostgreSQLDatabase.php:117-118 | corrected: every statement sent follows the opening of the transaction |
| Postgres.Apply | src/Drivers/PostgreSQLDatabase.php:43-216 | any handler call, returning or throwing, keeps the connection; a successful `query` installs a fresh statement, a successful `bind` on a statement appends its binding, and every other call leaves the handler as it was |
| Postgres.RunAppend | src/Drivers/PostgreSQLDatabase.php:43-216 | running two sequences of calls one after the other is running their concatenation |
| Postgres.RunKeepsConnection | src/Drivers/PostgreSQLDatabase.php:20-41 | no sequence of calls changes the connection parameters fixed by the constructor |
| Postgres.RunAfterStatement | src/Drivers/PostgreSQLDatabase.php:53-78 | with a statement and no further successful `query`, the statement keeps its SQL and gains exactly the successful bindings, in order |
| Postgres.StatementFollowsLastQuery | src/Drivers/PostgreSQLDatabase.php:43-78 | after any history, the statement holds the SQL of the last successful `query` and exactly the bindings made since, in order |
| Postgres.NoStatementWithoutQuery | src/Drivers/PostgreSQLDatabase.php:43-78 | until a `query` succeeds there is no statement, whatever else is called |
| Mongo.Connect | src/Drivers/MongoDBDatabase.php:16-25 | the URI defaults to `mongodb://127.0.0.1:27017`; failure → `MongoDB connection failed: `; no error is recorded yet |
| Mongo.Insert | src/Drivers/MongoDBDatabase.php:53-62 | the inserted id on success; on failure `false`, with the message recorded |
| Mongo.FindOne | src/Drivers/MongoDBDatabase.php:64-73 | the document, or null when none matches; null on failure, with the message recorded |
| Mongo.FindMany | src/Drivers/MongoDBDatabase.php:75-84 | the documents; `[]` on failure, with the message recorded |
| Mongo.RawQuery | src/Drivers/MongoDBDatabase.php:37-46 | the aggregation's documents; `[]` on failure, with the message recorded |
| Mongo.UpdateOne | src/Drivers/MongoDBDatabase.php:86-95 | sends `{'$set': update}`; true iff something was modified; `false` on failure, with the message recorded |
| Mongo.UpdateMany | src/Drivers/MongoDBDatabase.php:27-36 | sends `{'$set': update}`; the modified count; 0 on failure, with the message recorded |
| Mongo.DeleteOne | src/Drivers/MongoDBDatabase.php:97-106 | true iff something was deleted; `false` on failure, with the message recorded |
| Mongo.DeleteMany | src/Drivers/MongoDBDatabase.php:108-117 | the deleted count; 0 on failure, with the message recorded |
| Mongo.Count | src/Drivers/MongoDBDatabase.php:119-127 | the count; 0 on failure, with the message recorded |
| Mongo.Command | src/Drivers/MongoDBDatabase.php:132-140 | the reply documents; `false` on failure, with the message recorded |
| Mongo.ErrorInfo | src/Drivers/MongoDBDatabase.php:169-172 | `[lastError]` iff an error is recorded and is truthy (not `""` or `"0"`); otherwise null |
| Mongo.LastInsertId | src/Drivers/MongoDBDatabase.php:47-51 | always throws `MongoDB generates ObjectId automatically.` |
| Mongo.BeginTransaction | src/Drivers/MongoDBDatabase.php:142-149 | starts a fresh session and a transaction on it; failure → `Failed to start transaction: `; `lastError` untouched |
| Mongo.CommitTransaction | src/Drivers/MongoDBDatabase.php:151-158 | starts a fresh session and commits on it; failure → `Failed to commit transaction: `; `lastError` untouched |
| Mongo.RollbackTransaction | src/Drivers/MongoDBDatabase.php:160-167 | starts a fresh session and aborts on it; failure → `Failed to rollback transaction: `; `lastError` untouched |
| Mongo.FailureIsReported | src/Drivers/MongoDBDatabase.php:86-95 | after a failed update, `errorInfo` reports the message if it is truthy, and null if it is not |
| Mongo.StaleErrorSurvivesSuccess | src/Drivers/MongoDBDatabase.php:108-127 | after a failure and then a success, `errorInfo` still reports the earlier failure |
| Mongo.TransactionFailureLeavesErrorRecord | src/Drivers/MongoDBDatabase.php:151-158 | a failed commit throws and leaves `errorInfo` as it was |
| Mongo.Apply | src/Drivers/MongoDBDatabase.php:27-172 | any handler call keeps the URI and database; a failing CRUD call records its message, every other call leaves the record alone; each transaction call whose session started counts one more session |
| Mongo.ErrorRecordIsLastFailure | src/Drivers/MongoDBDatabase.php:27-140 | after any sequence of calls the recorded error is the message of the last absorbed failure, or the earlier record when none failed |
| Mongo.ErrorInfoReportsLastFailure | src/Drivers/MongoDBDatabase.php:169-172 | after any sequence of calls `errorInfo` reports the last absorbed failure when its message is truthy, null when it is falsy, and the earlier answer when nothing failed |
| Mongo.SessionsCounted | src/Drivers/MongoDBDatabase.php:142-167 | every transaction call whose `startSession()` succeeded started a session of its own, so the count grows by exactly their number |
| Mongo.CommitIgnoresBeginSession | src/Drivers/MongoDBDatabase.php:142-167 | as written, commit and rollback each act on a session other than the one begin started |
| Mongo.BeginOnSession | src/Drivers/MongoDBDatabase.php:142-149 | corrected: the session whose transaction started is kept |
| Mongo.CommitOnSession | src/Drivers/MongoDBDatabase.php:151-158 | corrected: commits on the kept session; with none it sends nothing and throws |
| Mongo.RollbackOnSession | src/Drivers/MongoDBDatabase.php:160-167 | corrected: aborts on the kept session; with none it sends nothing and throws |
| Mongo.ThreadedEndUsesBeginSession | src/Drivers/MongoDBDatabase.php:142-167 | corrected: commit and rollback act on exactly the session begin started |
| Redis.Connect | src/Drivers/RedisDatabase.php:16-28 | scheme `tcp`, host `127.0.0.1`, port 6379 and timeout 0.0 when missing or null, and each set option passed through unchanged; failure → `Failed to connect to Redis server: ` |
| Redis.Insert | src/Drivers/RedisDatabase.php:31-38 | SET, then EXPIRE only when the expiration is positive (default 0); `true` unless a command fails |
| Redis.Update | src/Drivers/RedisDatabase.php:50-53 | starts with SET of the key; any value it returns is `true` |
| Redis.Select | src/Drivers/RedisDatabase.php:40-43 | GET key; the reply unchanged |
| Redis.Delete | src/Drivers/RedisDatabase.php:45-48 | DEL with `[key]`; the reply unchanged |
| Redis.Increment | src/Drivers/RedisDatabase.php:55-58 | INCRBY with the amount, 1 when omitted |
| Redis.Decrement | src/Drivers/RedisDatabase.php:60-63 | DECRBY with the amount, 1 when omitted |
| Redis.SelectAll | src/Drivers/RedisDatabase.php:65-68 | KEYS `*` |
| Redis.Flush | src/Drivers/RedisDatabase.php:70-73 | FLUSHALL |
| Redis.HashInsert | src/Drivers/RedisDatabase.php:76-79 | HSET hash field value |
| Redis.HashSelect | src/Drivers/RedisDatabase.php:81-84 | HGET hash field |
| Redis.HashDelete | src/Drivers/RedisDatabase.php:86-89 | HDEL with `[field]` |
| Redis.HashSelectAll | src/Drivers/RedisDatabase.php:91-94 | HGETALL hash |
| Redis.Push | src/Drivers/RedisDatabase.php:97-100 | LPUSH with `[value]` |
| Redis.Pop | src/Drivers/RedisDatabase.php:102-105 | RPOP list |
| Redis.ListRange | src/Drivers/RedisDatabase.php:107-110 | LRANGE list start stop |
| Redis.SetAdd | src/Drivers/RedisDatabase.php:113-116 | SADD with `[value]` |
| Redis.SetRemove | src/Drivers/RedisDatabase.php:118-121 | SREM with `[value]` |
| Redis.SetMembers | src/Drivers/RedisDatabase.php:123-126 | SMEMBERS set |
| Redis.SetIntersect | src/Drivers/RedisDatabase.php:128-131 | SINTER with `[set1, set2]` |
| Redis.SortedAdd | src/Drivers/RedisDatabase.php:134-137 | ZADD with the one-entry score-to-member dictionary |
| Redis.SortedRemove | src/Drivers/RedisDatabase.php:139-142 | ZREM with `[member]` |
| Redis.SortedRange | src/Drivers/RedisDatabase.php:144-147 | ZRANGE with WITHSCORES set as given, false when omitted |
| Redis.SortedRevRange | src/Drivers/RedisDatabase.php:149-152 | ZREVRANGE with WITHSCORES set as given, false when omitted |
| Redis.SortedScore | src/Drivers/RedisDatabase.php:154-157 | ZSCORE zset member |
| Redis.SortedRank | src/Drivers/RedisDatabase.php:159-162 | ZRANK zset member |
| Redis.Publish | src/Drivers/RedisDatabase.php:165-168 | PUBLISH channel message |
| Redis.SetExpiration | src/Drivers/RedisDatabase.php:178-181 | EXPIRE key seconds |
| Redis.GetTtl | src/Drivers/RedisDatabase.php:183-186 | TTL key |
| Redis.InsertExpiresIffPositive | src/Drivers/RedisDatabase.php:33-36 | EXPIRE is sent iff the expiration is positive, and only then are there two commands |
| Redis.InsertIgnoresReplies | src/Drivers/RedisDatabase.php:37 | when no command fails, `insert`'s trace and result do not depend on the replies, and the result is `true` |
| Redis.UpdateIsInsert | src/Drivers/RedisDatabase.php:50-53 | `update` gives the same commands and result as `insert` |
| Redis.AmountDefaultsToOne | src/Drivers/RedisDatabase.php:55-63 | omitting the amount is the same as passing 1, for both increment and decrement |
| Redis.PushPopOppositeEnds | src/Drivers/RedisDatabase.php:97-105 | `push` works at the head and `pop` at the tail of the same list |
| Redis.SingleArgumentWrapping | src/Drivers/RedisDatabase.php:45-142 | `delete`, `hash_delete`, `set_add`, `set_remove`, `zrem` and `push` pass their one argument as a one-element list |
| Redis.IntersectPassesBoth | src/Drivers/RedisDatabase.php:128-131 | `set_intersect` passes exactly `[set1, set2]`, in that order |

## Left out

General limits:

- **Native clients.** PDO, `MongoDB\Client` and Predis are not modelled
  beyond their outcomes, and their code is not part of this model. What
  they return is an argument:
  - which SQL succeeds
  - row counts, rows and ids
  - Redis replies and data semantics (TTL countdown, list and set contents)
  - server-side transaction and savepoint semantics
- **Persistent connections and lifecycle.** Not modelled:
  - persistent connections (`PDO::ATTR_PERSISTENT`)
  - PostgreSQL's `__destruct`
  These are connection plumbing with no observable result.
- **MySQL `close` message.** `MySql.Close` throws the `TypeError` that
  PHP raises for a null assignment to a typed property; the message text
  is PHP's engine wording, not the repository's.
- **Redis `subscribe`.** It is a blocking callback loop, so it is I/O and
  concurrency.
- **Redis `timeout` default.** The float 0.0 is carried as an opaque
  constant.

Simplifications to PHP semantics:

- **Loose comparison and coercion.** Only two cases are modelled: the
  driver `switch` (string identifiers and `true`) and the truthiness of
  MongoDB's `lastError`. Elsewhere argument types are narrowed:
  - Redis keys are strings; expirations, amounts and ranges are integers.
  - A float or object driver value is treated as never matching.
- **Return-type coercion.** Only `fetchColumn`'s `string` declaration is
  modelled value by value. A float or an object cell is carried as the text
  its string conversion gives; an object without `__toString`, which PHP
  would refuse, is not distinguished.
- **Integer array keys.** Keys are strings; PHP's integer keys are not
  modelled.
- **Sorted-set adds.** Redis `zadd` is modelled as the single
  (score, member) pair the handler builds. Neither PHP's coercion of the
  score into an array key nor Predis's reading of that dictionary is
  modelled.
- **Which names reach `__call`.** `Database.Call` models `__call` itself. PHP
  sends only names the facade cannot call itself, so it never forwards
  `__construct`. MongoDB and Redis are not reachable from the facade, as in
  the source.
- **Wrong-type arguments.** PHP engine errors that come from wrong-type
  arguments are not modelled. One example is a missing MongoDB `database`
  key.

Contracts stated weaker than the source:

- MySql.Query: prepare and execute are one outcome; which of the two failed
  is not distinguished.
- MySql.Insert: the failure of `query` and the failure of `rowCount` are one
  outcome. Both propagate unchanged.
- MySql.Update: the failure of `query` and the failure of `rowCount` are one
  outcome. Both propagate unchanged.
- MySql.Delete: the failure of `query` and the failure of `rowCount` are one
  outcome. Both propagate unchanged.
- MySql.Select: the failure of `query` and the failure of `fetchAll` are one
  outcome. Both propagate unchanged.
- MySql.ConnectionString: the field-splitting guarantee is stated only when
  the host, database and port contain no `;`.
- Postgres.ConnectionString: the field-splitting guarantee is stated only when
  the host, database and port contain no `;`.
- Postgres.LastErrorMessage: other scalars in element 2 (integers,
  booleans, floats) are converted as PHP interpolation converts them, and
  floats are carried as text.
- Redis.Update: its own contract states only the first command and the
  result. `Redis.UpdateIsInsert` states that it equals `insert`.

## Findings

| source | as written | input that shows it | evidently intended | confidence | as-written member | corrected member |
|---|---|---|---|---|---|---|
| src/Drivers/PostgreSQLDatabase.php:117-118 | `SET TRANSACTION ISOLATION LEVEL L` is sent before `beginTransaction()`. PostgreSQL honours `SET TRANSACTION` only inside a transaction block; outside one it warns and has no effect. | `beginTransaction("READ COMMITTED")`: the SET runs in autocommit, and the transaction then runs at the server's default level | begin the transaction, then set its isolation level as its first statement | medium, not executed | Postgres.IsolationSetOutsideBlock | Postgres.IsolationSetInsideBlock |
| src/Drivers/MongoDBDatabase.php:145-163 | every transaction method calls `startSession()` again, so commit and abort act on a brand-new session that has no transaction | `beginTransaction()` then `commitTransaction()`: the commit is sent on a second session, never on the session whose transaction was started | start the session once in `beginTransaction`, keep it, and commit or abort that session | high, not executed | Mongo.CommitIgnoresBeginSession | Mongo.ThreadedEndUsesBeginSession |

=== FILE: common.dfy ===
/** Values, native outcomes and handler results shared by every handler of
    the data-access layer. */
module Common {
  import Text

  /** A PHP value as it crosses the data-access layer. Arrays are ordered
      key/value maps; floats and objects are carried opaquely with the text
      PHP's string conversion gives them. */
  datatype Value =
    | VNull
    | VBool(b: bool)
    | VInt(i: int)
    | VStr(s: string)
    | VArray(entries: seq<Entry>)
    | VOther(repr: string)

  /** One key/value pair of an ordered PHP array. */
  datatype Entry = Entry(key: string, value: Value)

  /** An ordered key/value map: a PHP associative array such as `$data`,
      `$conditions`, a filter, a document or a result row. */
  type Assoc = seq<Entry>

  /** A configuration array; a missing key reads as null. */
  type Config = map<string, Value>

  datatype Option<+T> = None | Some(value: T)

  /** What a call into a native client (PDO, MongoDB, Predis) did. The model
      is driven by these outcomes, supplied as inputs. */
  datatype Outcome<+T> = Ok(value: T) | Fail(message: string)

  /** What a handler method hands back to its caller: a value, or an exception
      carrying a message. */
  datatype Result<+T> = Returns(value: T) | Throws(message: string)

  /** The keys of an ordered map, in order (`array_keys`). */
  function Keys(d: Assoc): (ks: seq<string>)
    ensures |ks| == |d|
    ensures forall i :: 0 <= i < |d| ==> ks[i] == d[i].key
  {
    seq(|d|, i requires 0 <= i < |d| => d[i].key)
  }

  /** The values of an ordered map, in order (`array_values`). */
  function Values(d: Assoc): (vs: seq<Value>)
    ensures |vs| == |d|
    ensures forall i :: 0 <= i < |d| ==> vs[i] == d[i].value
  {
    seq(|d|, i requires 0 <= i < |d| => d[i].value)
  }

  lemma KeysAppend(a: Assoc, b: Assoc)
    ensures Keys(a + b) == Keys(a) + Keys(b)
  {
  }

  lemma ValuesAppend(a: Assoc, b: Assoc)
    ensures Values(a + b) == Values(a) + Values(b)
  {
  }

  /** `$config[key]`: a missing key reads as null. */
  function Lookup(config: Config, key: string): Value
  {
    if key in config then config[key] else VNull
  }

  /** `isset($config[key])`: present and not null. */
  predicate IsSet(config: Config, key: string)
  {
    key in config && config[key] != VNull
  }

  /** `$config[key] ?? default`. */
  function Coalesce(config: Config, key: string, default: Value): (v: Value)
    ensures IsSet(config, key) ==> v == config[key]
    ensures !IsSet(config, key) ==> v == default
  {
    if IsSet(config, key) then config[key] else default
  }

  /** The text PHP's string interpolation produces for a value. */
  function Interp(v: Value): string
  {
    match v
    case VNull => ""
    case VBool(b) => if b then "1" else ""
    case VInt(i) => Text.IntToString(i)
    case VStr(s) => s
    case VArray(_) => "Array"
    case VOther(repr) => repr
  }

  /** A PDO data source name: `driver:host=H;dbname=D;port=P`. */
  function PdoDsn(driver: string, host: string, db: string, port: string): string
  {
    driver + ":host=" + host + ";dbname=" + db + ";port=" + port
  }

  /** A DSN whose field values hold no `;` splits back into its three
      fields; every DSN ends in `;port=` and its port. */
  lemma PdoDsnFields(driver: string, host: string, db: string, port: string)
    requires ';' !in driver
    ensures ';' !in host + db + port ==>
      Text.Split(PdoDsn(driver, host, db, port), ';')
        == [driver + ":host=" + host, "dbname=" + db, "port=" + port]
    ensures Text.EndsWith(PdoDsn(driver, host, db, port), ";port=" + port)
  {
    var a := driver + ":host=" + host;
    var b := "dbname=" + db;
    var c := "port=" + port;
    assert PdoDsn(driver, host, db, port) == driver + ":host=" + host + ";dbname=" + db + (";port=" + port);
    if ';' !in host + db + port {
      assert ';' !in host && ';' !in db && ';' !in port;
      assert ';' !in a && ';' !in b && ';' !in c;
      Text.SplitFree(c, ';');
      Text.SplitAtMark(b, c, ';');
      assert b + ";" + c == b + [';'] + c;
      assert PdoDsn(driver, host, db, port) == a + [';'] + (b + ";" + c);
      Text.SplitAtMark(a, b + ";" + c, ';');
    }
  }
}

=== FILE: database.dfy ===
/** The `Database` facade: construction picks one handler from the config's
    `driver`, and every other call is forwarded to that handler when it has
    a method of that name. */
module Database {
  import opened Common
  import Text
  import MySql
  import Postgres

  const DefaultDriver: string := "mysql"

  /** The handler the facade holds; which kind is fixed at construction. */
  datatype Handler = MySqlHandler(mysql: MySql.Handler) | PgsqlHandler(pgsql: Postgres.Handler)

  datatype Driver = MySqlDriver | PgsqlDriver

  /** The config the chosen handler receives: `driver` filled in with the
      default when it is missing or null. */
  function WithDriver(config: Config): (c: Config)
    ensures IsSet(c, "driver")
    ensures !IsSet(config, "driver") ==> c["driver"] == VStr(DefaultDriver)
    ensures forall k :: k in config && k != "driver" ==> k in c && c[k] == config[k]
    ensures forall k :: k in c ==> k in config || k == "driver"
    ensures IsSet(config, "driver") ==> c == config
  {
    if IsSet(config, "driver") then config else config["driver" := VStr(DefaultDriver)]
  }

  /** PHP's loose `==` between a value and a non-empty, non-numeric string
      literal, which is how `switch` compares its cases: a string matches
      only itself, `true` matches any such literal, and every other value
      (false, null, integers, arrays, floats, objects) matches none. */
  predicate LooseEquals(v: Value, literal: string)
  {
    match v
    case VStr(s) => s == literal
    case VBool(b) => b
    case _ => false
  }

  /** The `switch` on the driver: its first matching case wins. */
  function Choose(driver: Value): (d: Option<Driver>)
    ensures driver == VStr("mysql") ==> d == Some(MySqlDriver)
    ensures driver == VStr("pgsql") ==> d == Some(PgsqlDriver)
    ensures driver.VStr? ==> (d.Some? <==> driver.s == "mysql" || driver.s == "pgsql")
    ensures !driver.VStr? ==> (d.Some? <==> driver == VBool(true))
    ensures driver == VBool(true) ==> d == Some(MySqlDriver)
  {
    if LooseEquals(driver, "mysql") then Some(MySqlDriver)
    else if LooseEquals(driver, "pgsql") then Some(PgsqlDriver)
    else None
  }

  function Unsupported(driver: Value): string
  {
    "Driver " + Interp(driver) + " is not supported."
  }

  /** `new Database($config)`: chooses the handler and constructs it, its
      constructor's outcome being `connect`; an unsupported driver fails
      before any handler is built. */
  function New(config: Config, connect: Outcome<()>): (r: Result<Handler>)
    ensures var driver := WithDriver(config)["driver"];
      && (Choose(driver).None? ==> r == Throws(Unsupported(driver)))
      && (Choose(driver).Some? ==> (r.Returns? <==> connect.Ok?))
      && (Choose(driver) == Some(MySqlDriver) && connect.Fail? ==>
            r == Throws("MySQL Connection Failed: " + connect.message))
      && (Choose(driver) == Some(PgsqlDriver) && connect.Fail? ==>
            r == Throws("Connection failed: " + connect.message))
    ensures r.Returns? ==> (r.value.MySqlHandler? <==> Choose(WithDriver(config)["driver"]) == Some(MySqlDriver))
    ensures r.Returns? && r.value.MySqlHandler? ==> r.value.mysql.config == WithDriver(config)
    ensures r.Returns? ==> var c := WithDriver(config);
      && (Choose(c["driver"]) == Some(MySqlDriver) ==>
            r.value == MySqlHandler(MySql.Connect(c, connect).value))
      && (Choose(c["driver"]) == Some(PgsqlDriver) ==>
            r.value == PgsqlHandler(Postgres.Connect(c, connect).value))
  {
    var c := WithDriver(config);
    var driver := c["driver"];
    match Choose(driver)
    case None => Throws(Unsupported(driver))
    case Some(MySqlDriver) =>
      (match MySql.Connect(c, connect)
       case Returns(m) => Returns(MySqlHandler(m))
       case Throws(e) => Throws(e))
    case Some(PgsqlDriver) =>
      (match Postgres.Connect(c, connect)
       case Returns(p) => Returns(PgsqlHandler(p))
       case Throws(e) => Throws(e))
  }

  // ------------------------------------------------------------- forwarding

  /** The public methods of each handler class, lower-cased. */
  const MySqlMethods: set<string> := {
    "__construct", "connect", "query", "insert", "update", "delete", "select",
    "begintransaction", "committransaction", "rollbacktransaction", "close"
  }

  const PgsqlMethods: set<string> := {
    "__construct", "query", "bind", "execute", "resultset", "single", "rowcount",
    "begintransaction", "committransaction", "rollbacktransaction", "lastinsertid",
    "errorinfo", "beginsavepoint", "rollbacksavepoint", "releasesavepoint",
    "getversion", "lasterrorcode", "lasterrormessage", "fetchcolumn", "fetchrow",
    "__destruct"
  }

  function Methods(h: Handler): set<string>
  {
    if h.MySqlHandler? then MySqlMethods else PgsqlMethods
  }

  /** `method_exists($handler, $name)`: method names compare without regard
      to ASCII case. */
  predicate HasMethod(h: Handler, name: string)
  {
    Text.Lower(name) in Methods(h)
  }

  function NoSuchMethod(name: string): string
  {
    "Method " + name + " does not exist on the handler."
  }

  /** What forwarding one call did: the handler afterwards and the result. */
  datatype Forwarded<+R> = Forwarded(handler: Handler, result: Result<R>)

  /** `__call($name, $args)`: `onMySql` and `onPgsql` stand for the named
      method applied to the arguments on each handler kind. A method the
      handler lacks fails without touching the handler; otherwise the
      handler's result, value or exception, comes back unchanged. */
  function Call<R>(h: Handler, name: string,
                   onMySql: MySql.Handler -> (MySql.Handler, Result<R>),
                   onPgsql: Postgres.Handler -> Postgres.Step<R>): (r: Forwarded<R>)
    ensures !HasMethod(h, name) ==> r == Forwarded(h, Throws(NoSuchMethod(name)))
    ensures HasMethod(h, name) && h.MySqlHandler? ==>
      r.handler == MySqlHandler(onMySql(h.mysql).0) && r.result == onMySql(h.mysql).1
    ensures HasMethod(h, name) && h.PgsqlHandler? ==>
      r.handler == PgsqlHandler(onPgsql(h.pgsql).state) && r.result == onPgsql(h.pgsql).result
  {
    if !HasMethod(h, name) then Forwarded(h, Throws(NoSuchMethod(name)))
    else match h
      case MySqlHandler(m) => var (m', res) := onMySql(m); Forwarded(MySqlHandler(m'), res)
      case PgsqlHandler(p) => var s := onPgsql(p); Forwarded(PgsqlHandler(s.state), s.result)
  }

  // ------------------------------------------------------------------ lemmas

  /** A config without a driver, or with a null one, builds the MySQL
      handler exactly as an explicit `'mysql'` does. */
  lemma MissingDriverIsMySql(config: Config, connect: Outcome<()>)
    requires !IsSet(config, "driver")
    ensures New(config, connect) == New(config["driver" := VStr("mysql")], connect)
    ensures New(config, connect).Returns? ==> New(config, connect).value.MySqlHandler?
  {
  }

  /** Every identifier other than `'mysql'` and `'pgsql'` is refused, with
      the identifier in the message and whatever the constructor would have
      done. */
  lemma OtherDriversRefused(config: Config, name: string, a: Outcome<()>, b: Outcome<()>)
    requires "driver" in config && config["driver"] == VStr(name)
    requires name != "mysql" && name != "pgsql"
    ensures New(config, a) == New(config, b) == Throws("Driver " + name + " is not supported.")
  {
  }

  /** In particular MongoDB, whose handler exists but is not wired in. */
  lemma MongoDbRefused(config: Config, connect: Outcome<()>)
    requires "driver" in config && config["driver"] == VStr("mongodb")
    ensures New(config, connect) == Throws("Driver mongodb is not supported.")
  {
    MongoDbIsOther();
    OtherDriversRefused(config, "mongodb", connect, connect);
    MongoDbMessage();
  }

  lemma MongoDbIsOther()
    ensures "mongodb" != "mysql" && "mongodb" != "pgsql"
  {
    assert "mongodb"[1] != "mysql"[1] && "mongodb"[0] != "pgsql"[0];
  }

  lemma MongoDbMessage()
    ensures "Driver " + "mongodb" + " is not supported." == "Driver mongodb is not supported."
  {
  }

  /** A missing method makes no handler call: the outcome is the same
      whatever the handler would have done. */
  lemma MissingMethodCallsNothing<R>(h: Handler, name: string,
                                     m1: MySql.Handler -> (MySql.Handler, Result<R>), p1: Postgres.Handler -> Postgres.Step<R>,
                                     m2: MySql.Handler -> (MySql.Handler, Result<R>), p2: Postgres.Handler -> Postgres.Step<R>)
    requires !HasMethod(h, name)
    ensures Call(h, name, m1, p1) == Call(h, name, m2, p2)
    ensures Call(h, name, m1, p1).handler == h
  {
  }

  /** Forwarding never swaps the handler for one of the other kind. */
  lemma HandlerKindFixed<R>(h: Handler, name: string,
                            onMySql: MySql.Handler -> (MySql.Handler, Result<R>),
                            onPgsql: Postgres.Handler -> Postgres.Step<R>)
    ensures Call(h, name, onMySql, onPgsql).handler.MySqlHandler? == h.MySqlHandler?
  {
  }

  /** Method lookup ignores case: a name is found exactly when its
      lower-cased form is. */
  lemma MethodLookupIgnoresCase(h: Handler, name: string)
    ensures HasMethod(h, name) <==> HasMethod(h, Text.Lower(name))
  {
    Text.LowerIdempotent(name);
  }

  /** `$db->query($sql)` on PostgreSQL hands back the PostgreSQL handler
      itself, holding the new statement, so a chain continues on the
      handler rather than on the facade. */
  lemma QueryChainsOnHandler(p: Postgres.Handler, sql: string, prepare: Outcome<()>)
    requires prepare.Ok?
    ensures var r := Call(PgsqlHandler(p), "query",
                          (m: MySql.Handler) => (m, Throws("")),
                          (q: Postgres.Handler) => Postgres.Query(q, sql, prepare));
      && r.result.Returns?
      && r.handler == PgsqlHandler(r.result.value)
      && r.result.value.stmt == Some(Postgres.Statement(sql, []))
  {
    assert Text.Lower("query") == "query";
  }

  /** MySQL has no `bind`: asking the facade for it fails on a MySQL
      handler and is forwarded on a PostgreSQL one. */
  lemma BindOnlyOnPostgres(m: MySql.Handler, p: Postgres.Handler)
    ensures !HasMethod(MySqlHandler(m), "bind")
    ensures HasMethod(PgsqlHandler(p), "bind")
    ensures HasMethod(PgsqlHandler(p), "BIND")
  {
    assert Text.Lower("bind") == "bind";
    assert Text.Lower("BIND") == "bind";
  }

  /** `close` reaches the MySQL handler through the facade, and its error
      comes back to the caller with the handler unchanged. */
  lemma CloseFailsThroughFacade(m: MySql.Handler, onPgsql: Postgres.Handler -> Postgres.Step<()>)
    ensures var r := Call(MySqlHandler(m), "close", MySql.Close, onPgsql);
      r.handler == MySqlHandler(m) && r.result == Throws(MySql.CloseError)
  {
    assert Text.Lower("close") == "close";
  }
}

=== FILE: mongo.dfy ===
/** The MongoDB handler. Its CRUD operations absorb every client failure:
    they return a fixed falsy value and record the failure's message as the
    handler's last error, which `errorInfo` reports until a later failure
    overwrites it. Its transaction operations instead rethrow failures
    behind a fixed prefix. The client is an oracle: each call's outcome is
    an input, and each operation reports the client calls it made. */
module Mongo {
  import opened Common

  const DefaultUri: string := "mongodb://127.0.0.1:27017"
  const NoInsertId: string := "MongoDB generates ObjectId automatically."
  /** The message the session-keeping variant fails with when no
      transaction was begun. */
  const NoTransaction: string := "No transaction started"

  /** The handler: the connection parameters, the last recorded error
      (`None` while nothing was recorded) and how many sessions the client
      has started, each `startSession()` yielding a fresh one. */
  datatype Handler = Handler(uri: Value, database: Value, lastError: Option<string>, sessionsStarted: nat)

  /** A call into the MongoDB client library: `CallX` is the library's
      method `x`. */
  datatype ClientCall =
    | CallInsertOne(collection: string, document: Assoc)
    | CallFindOne(collection: string, filter: Assoc)
    | CallFind(collection: string, filter: Assoc, options: Assoc)
    | CallAggregate(collection: string, pipeline: seq<Assoc>)
    | CallUpdateOne(collection: string, filter: Assoc, update: Assoc)
    | CallUpdateMany(collection: string, filter: Assoc, update: Assoc)
    | CallDeleteOne(collection: string, filter: Assoc)
    | CallDeleteMany(collection: string, filter: Assoc)
    | CallCountDocuments(collection: string, filter: Assoc)
    | CallCommand(command: Assoc)
    | CallStartSession(session: nat)
    | CallStartTransaction(session: nat)
    | CallCommitTransaction(session: nat)
    | CallAbortTransaction(session: nat)

  /** One operation: the handler afterwards, the client calls made, and the
      value returned. */
  datatype Step<+T> = Step(state: Handler, issued: seq<ClientCall>, result: T)

  /** PHP truthiness of a string: everything except `""` and `"0"`. */
  predicate Truthy(s: string)
  {
    s != "" && s != "0"
  }

  /** `['$set' => $update]`: the update document the handler sends. */
  function SetDocument(update: Assoc): (d: Assoc)
    ensures |d| == 1 && d[0].key == "$set" && d[0].value == VArray(update)
  {
    [Entry("$set", VArray(update))]
  }

  // ---------------------------------------------------------------- connect

  /** The constructor: the URI defaults to the local server; a failure
      becomes `MongoDB connection failed: ...`. */
  function Connect(config: Config, native: Outcome<()>): (r: Result<Handler>)
    ensures r.Returns? <==> native.Ok?
    ensures r.Returns? ==>
      && r.value.lastError.None?
      && r.value.uri == Coalesce(config, "uri", VStr(DefaultUri))
      && r.value.database == Lookup(config, "database")
    ensures native.Fail? ==> r.message == "MongoDB connection failed: " + native.message
  {
    match native
    case Ok(_) => Returns(Handler(Coalesce(config, "uri", VStr(DefaultUri)), Lookup(config, "database"), None, 0))
    case Fail(m) => Throws("MongoDB connection failed: " + m)
  }

  // -------------------------------------------------------------------- CRUD

  /** The shape every CRUD operation shares: one client call; on success its
      answer mapped by `onOk` with the handler untouched; on failure the
      `fallback` and the message recorded as the last error. */
  function Absorb<N, T>(h: Handler, call: ClientCall, native: Outcome<N>, onOk: N -> T, fallback: T): (r: Step<T>)
    ensures r.issued == [call]
    ensures native.Ok? ==> r.state == h && r.result == onOk(native.value)
    ensures native.Fail? ==> r.state == h.(lastError := Some(native.message)) && r.result == fallback
  {
    match native
    case Ok(v) => Step(h, [call], onOk(v))
    case Fail(m) => Step(h.(lastError := Some(m)), [call], fallback)
  }

  /** `insert($collection, $data)`: the inserted id, or `false`. */
  function Insert(h: Handler, collection: string, data: Assoc, native: Outcome<Value>): (r: Step<Value>)
    ensures r.issued == [CallInsertOne(collection, data)]
    ensures native.Ok? ==> r.state == h && r.result == native.value
    ensures native.Fail? ==> r.state == h.(lastError := Some(native.message)) && r.result == VBool(false)
  {
    Absorb(h, CallInsertOne(collection, data), native, (id: Value) => id, VBool(false))
  }

  /** `findOne($collection, $filter)`: the matching document as an array,
      `null` (`None`) when nothing matches, and `null` on failure too. */
  function FindOne(h: Handler, collection: string, filter: Assoc, native: Outcome<Option<Assoc>>)
    : (r: Step<Option<Assoc>>)
    ensures r.issued == [CallFindOne(collection, filter)]
    ensures native.Ok? ==> r.state == h && r.result == native.value
    ensures native.Fail? ==> r.state == h.(lastError := Some(native.message)) && r.result == None
  {
    Absorb(h, CallFindOne(collection, filter), native, (d: Option<Assoc>) => d, None)
  }

  /** `findMany($collection, $filter, $options = [])`: the documents, or `[]`. */
  function FindMany(h: Handler, collection: string, filter: Assoc, options: Assoc, native: Outcome<seq<Assoc>>)
    : (r: Step<seq<Assoc>>)
    ensures r.issued == [CallFind(collection, filter, options)]
    ensures native.Ok? ==> r.state == h && r.result == native.value
    ensures native.Fail? ==> r.state == h.(lastError := Some(native.message)) && r.result == []
  {
    Absorb(h, CallFind(collection, filter, options), native, (ds: seq<Assoc>) => ds, [])
  }

  /** `rawQuery($collection, $query = [])`: the aggregation's documents, or `[]`. */
  function RawQuery(h: Handler, collection: string, pipeline: seq<Assoc>, native: Outcome<seq<Assoc>>)
    : (r: Step<seq<Assoc>>)
    ensures r.issued == [CallAggregate(collection, pipeline)]
    ensures native.Ok? ==> r.state == h && r.result == native.value
    ensures native.Fail? ==> r.state == h.(lastError := Some(native.message)) && r.result == []
  {
    Absorb(h, CallAggregate(collection, pipeline), native, (ds: seq<Assoc>) => ds, [])
  }

  /** `updateOne(...)`: sends the update under `$set`; true iff the client
      reports a modified document, false on failure. */
  function UpdateOne(h: Handler, collection: string, filter: Assoc, update: Assoc, native: Outcome<nat>)
    : (r: Step<bool>)
    ensures r.issued == [CallUpdateOne(collection, filter, SetDocument(update))]
    ensures native.Ok? ==> r.state == h && (r.result <==> native.value > 0)
    ensures native.Fail? ==> r.state == h.(lastError := Some(native.message)) && !r.result
  {
    Absorb(h, CallUpdateOne(collection, filter, SetDocument(update)), native, (n: nat) => n > 0, false)
  }

  /** `updateMany(...)`: sends the update under `$set`; the modified count,
      0 on failure. */
  function UpdateMany(h: Handler, collection: string, filter: Assoc, update: Assoc, native: Outcome<nat>)
    : (r: Step<nat>)
    ensures r.issued == [CallUpdateMany(collection, filter, SetDocument(update))]
    ensures native.Ok? ==> r.state == h && r.result == native.value
    ensures native.Fail? ==> r.state == h.(lastError := Some(native.message)) && r.result == 0
  {
    Absorb(h, CallUpdateMany(collection, filter, SetDocument(update)), native, (n: nat) => n, 0)
  }

  /** `deleteOne(...)`: true iff the client reports a deleted document. */
  function DeleteOne(h: Handler, collection: string, filter: Assoc, native: Outcome<nat>): (r: Step<bool>)
    ensures r.issued == [CallDeleteOne(collection, filter)]
    ensures native.Ok? ==> r.state == h && (r.result <==> native.value > 0)
    ensures native.Fail? ==> r.state == h.(lastError := Some(native.message)) && !r.result
  {
    Absorb(h, CallDeleteOne(collection, filter), native, (n: nat) => n > 0, false)
  }

  /** `deleteMany(...)`: the deleted count, 0 on failure. */
  function DeleteMany(h: Handler, collection: string, filter: Assoc, native: Outcome<nat>): (r: Step<nat>)
    ensures r.issued == [CallDeleteMany(collection, filter)]
    ensures native.Ok? ==> r.state == h && r.result == native.value
    ensures native.Fail? ==> r.state == h.(lastError := Some(native.message)) && r.result == 0
  {
    Absorb(h, CallDeleteMany(collection, filter), native, (n: nat) => n, 0)
  }

  /** `count(...)`: the matching document count, 0 on failure. */
  function Count(h: Handler, collection: string, filter: Assoc, native: Outcome<nat>): (r: Step<nat>)
    ensures r.issued == [CallCountDocuments(collection, filter)]
    ensures native.Ok? ==> r.state == h && r.result == native.value
    ensures native.Fail? ==> r.state == h.(lastError := Some(native.message)) && r.result == 0
  {
    Absorb(h, CallCountDocuments(collection, filter), native, (n: nat) => n, 0)
  }

  /** `command($command)`: the reply documents, or `false` (`None`). */
  function Command(h: Handler, cmd: Assoc, native: Outcome<seq<Assoc>>): (r: Step<Option<seq<Assoc>>>)
    ensures r.issued == [CallCommand(cmd)]
    ensures native.Ok? ==> r.state == h && r.result == Some(native.value)
    ensures native.Fail? ==> r.state == h.(lastError := Some(native.message)) && r.result == None
  {
    Absorb(h, CallCommand(cmd), native, (ds: seq<Assoc>) => Some(ds), None)
  }

  // ----------------------------------------------------------- introspection

  /** `errorInfo()`: a one-element list holding the last error when one is
      recorded and truthy, `null` (`None`) otherwise. */
  function ErrorInfo(h: Handler): (r: Option<seq<string>>)
    ensures r.Some? <==> h.lastError.Some? && Truthy(h.lastError.value)
    ensures r.Some? ==> r.value == [h.lastError.value]
  {
    if h.lastError.Some? && Truthy(h.lastError.value) then Some([h.lastError.value]) else None
  }

  /** `lastInsertId()`: always throws, whatever the state. */
  function LastInsertId(h: Handler): (r: Result<string>)
    ensures r == Throws(NoInsertId)
  {
    Throws(NoInsertId)
  }

  // ------------------------------------------------------------ transactions

  /** A transaction operation as written: it asks the client for a fresh
      session (`start` says whether that worked) and calls `op` on it
      (`native`); either failure is rethrown behind `prefix`, and the last
      error is left alone. */
  function OnFreshSession(h: Handler, op: nat -> ClientCall, start: Outcome<()>, native: Outcome<()>, prefix: string)
    : (r: Step<Result<()>>)
    ensures start.Fail? ==>
      && r.state == h
      && r.issued == [CallStartSession(h.sessionsStarted)]
      && r.result == Throws(prefix + start.message)
    ensures start.Ok? ==>
      && r.state == h.(sessionsStarted := h.sessionsStarted + 1)
      && r.issued == [CallStartSession(h.sessionsStarted), op(h.sessionsStarted)]
      && (r.result.Returns? <==> native.Ok?)
      && (native.Fail? ==> r.result == Throws(prefix + native.message))
  {
    var s := h.sessionsStarted;
    match start
    case Fail(m) => Step(h, [CallStartSession(s)], Throws(prefix + m))
    case Ok(_) =>
      var h' := h.(sessionsStarted := s + 1);
      match native
      case Ok(_) => Step(h', [CallStartSession(s), op(s)], Returns(()))
      case Fail(m) => Step(h', [CallStartSession(s), op(s)], Throws(prefix + m))
  }

  /** `beginTransaction()`. */
  function BeginTransaction(h: Handler, start: Outcome<()>, native: Outcome<()>): (r: Step<Result<()>>)
    ensures r.state.lastError == h.lastError
    ensures start.Fail? ==> r.issued == [CallStartSession(h.sessionsStarted)]
    ensures start.Ok? ==> r.issued == [CallStartSession(h.sessionsStarted), CallStartTransaction(h.sessionsStarted)]
    ensures r.result.Returns? <==> start.Ok? && native.Ok?
    ensures start.Fail? ==> r.result == Throws("Failed to start transaction: " + start.message)
    ensures start.Ok? && native.Fail? ==> r.result == Throws("Failed to start transaction: " + native.message)
  {
    OnFreshSession(h, (s: nat) => CallStartTransaction(s), start, native, "Failed to start transaction: ")
  }

  /** `commitTransaction()`. */
  function CommitTransaction(h: Handler, start: Outcome<()>, native: Outcome<()>): (r: Step<Result<()>>)
    ensures r.state.lastError == h.lastError
    ensures start.Fail? ==> r.issued == [CallStartSession(h.sessionsStarted)]
    ensures start.Ok? ==> r.issued == [CallStartSession(h.sessionsStarted), CallCommitTransaction(h.sessionsStarted)]
    ensures r.result.Returns? <==> start.Ok? && native.Ok?
    ensures start.Fail? ==> r.result == Throws("Failed to commit transaction: " + start.message)
    ensures start.Ok? && native.Fail? ==> r.result == Throws("Failed to commit transaction: " + native.message)
  {
    OnFreshSession(h, (s: nat) => CallCommitTransaction(s), start, native, "Failed to commit transaction: ")
  }

  /** `rollbackTransaction()`. */
  function RollbackTransaction(h: Handler, start: Outcome<()>, native: Outcome<()>): (r: Step<Result<()>>)
    ensures r.state.lastError == h.lastError
    ensures start.Fail? ==> r.issued == [CallStartSession(h.sessionsStarted)]
    ensures start.Ok? ==> r.issued == [CallStartSession(h.sessionsStarted), CallAbortTransaction(h.sessionsStarted)]
    ensures r.result.Returns? <==> start.Ok? && native.Ok?
    ensures start.Fail? ==> r.result == Throws("Failed to rollback transaction: " + start.message)
    ensures start.Ok? && native.Fail? ==> r.result == Throws("Failed to rollback transaction: " + native.message)
  {
    OnFreshSession(h, (s: nat) => CallAbortTransaction(s), start, native, "Failed to rollback transaction: ")
  }

  // ------------------------------------------------------------------ lemmas

  /** A failed CRUD operation is what `errorInfo` reports next, provided its
      message is truthy; a falsy message (`""`, `"0"`) is recorded but
      reported as no error at all. */
  lemma FailureIsReported(h: Handler, collection: string, filter: Assoc, update: Assoc, message: string)
    ensures var r := UpdateOne(h, collection, filter, update, Fail(message));
      && !r.result
      && (Truthy(message) ==> ErrorInfo(r.state) == Some([message]))
      && (!Truthy(message) ==> ErrorInfo(r.state) == None)
  {
  }

  /** Success never touches the recorded error: after a failure and then a
      success, `errorInfo` still reports the earlier failure. */
  lemma StaleErrorSurvivesSuccess(h: Handler, collection: string, filter: Assoc, message: string, count: nat)
    requires Truthy(message)
    ensures var failed := DeleteMany(h, collection, filter, Fail(message));
      var succeeded := Count(failed.state, collection, filter, Ok(count));
      && succeeded.result == count
      && ErrorInfo(succeeded.state) == Some([message])
  {
  }

  /** Transaction failures propagate and leave the recorded error alone. */
  lemma TransactionFailureLeavesErrorRecord(h: Handler, start: Outcome<()>, message: string)
    ensures var r := CommitTransaction(h, start, Fail(message));
      r.result.Throws? && ErrorInfo(r.state) == ErrorInfo(h)
  {
  }

  /** As written, `commitTransaction` and `rollbackTransaction` act on a
      session of their own, never on the one `beginTransaction` started. */
  lemma CommitIgnoresBeginSession(h: Handler, b: Outcome<()>, c: Outcome<()>)
    ensures var begun := BeginTransaction(h, Ok(()), b);
      var committed := CommitTransaction(begun.state, Ok(()), c);
      var rolledBack := RollbackTransaction(begun.state, Ok(()), c);
      var beginSession := begun.issued[1].session;
      && committed.issued[1].CallCommitTransaction?
      && committed.issued[1].session != beginSession
      && rolledBack.issued[1].CallAbortTransaction?
      && rolledBack.issued[1].session != beginSession
  {
  }

  // ----------------------------------------------------- sequences of calls

  /** One handler method call together with its client outcomes. */
  datatype Op =
    | InsertOp(collection: string, data: Assoc, inserted: Outcome<Value>)
    | FindOneOp(collection: string, filter: Assoc, found: Outcome<Option<Assoc>>)
    | FindManyOp(collection: string, filter: Assoc, options: Assoc, documents: Outcome<seq<Assoc>>)
    | RawQueryOp(collection: string, pipeline: seq<Assoc>, documents: Outcome<seq<Assoc>>)
    | UpdateOneOp(collection: string, filter: Assoc, update: Assoc, modified: Outcome<nat>)
    | UpdateManyOp(collection: string, filter: Assoc, update: Assoc, modified: Outcome<nat>)
    | DeleteOneOp(collection: string, filter: Assoc, deleted: Outcome<nat>)
    | DeleteManyOp(collection: string, filter: Assoc, deleted: Outcome<nat>)
    | CountOp(collection: string, filter: Assoc, counted: Outcome<nat>)
    | CommandOp(command: Assoc, reply: Outcome<seq<Assoc>>)
    | BeginOp(start: Outcome<()>, native: Outcome<()>)
    | CommitOp(start: Outcome<()>, native: Outcome<()>)
    | RollbackOp(start: Outcome<()>, native: Outcome<()>)
    | ErrorInfoOp
    | LastInsertIdOp

  function FailureOf<T>(native: Outcome<T>): (m: Option<string>)
    ensures m.Some? <==> native.Fail?
    ensures m.Some? ==> m.value == native.message
  {
    if native.Fail? then Some(native.message) else None
  }

  /** The failure a call absorbs: a failing CRUD call's message. Transaction
      failures are thrown instead, and the other calls cannot fail. */
  function Absorbed(op: Op): Option<string>
  {
    match op
    case InsertOp(_, _, n) => FailureOf(n)
    case FindOneOp(_, _, n) => FailureOf(n)
    case FindManyOp(_, _, _, n) => FailureOf(n)
    case RawQueryOp(_, _, n) => FailureOf(n)
    case UpdateOneOp(_, _, _, n) => FailureOf(n)
    case UpdateManyOp(_, _, _, n) => FailureOf(n)
    case DeleteOneOp(_, _, n) => FailureOf(n)
    case DeleteManyOp(_, _, n) => FailureOf(n)
    case CountOp(_, _, n) => FailureOf(n)
    case CommandOp(_, n) => FailureOf(n)
    case _ => None
  }

  /** The sessions a call starts: one for a transaction call whose
      `startSession()` succeeded. */
  function Started(op: Op): nat
  {
    if (op.BeginOp? || op.CommitOp? || op.RollbackOp?) && op.start.Ok? then 1 else 0
  }

  /** The handler after one call, whether the call returned or threw. */
  function Apply(h: Handler, op: Op): (h': Handler)
    ensures h'.uri == h.uri && h'.database == h.database
    ensures Absorbed(op).Some? ==> h'.lastError == Absorbed(op)
    ensures Absorbed(op).None? ==> h'.lastError == h.lastError
    ensures h'.sessionsStarted == h.sessionsStarted + Started(op)
  {
    match op
    case InsertOp(c, d, n) => Insert(h, c, d, n).state
    case FindOneOp(c, f, n) => FindOne(h, c, f, n).state
    case FindManyOp(c, f, o, n) => FindMany(h, c, f, o, n).state
    case RawQueryOp(c, q, n) => RawQuery(h, c, q, n).state
    case UpdateOneOp(c, f, u, n) => UpdateOne(h, c, f, u, n).state
    case UpdateManyOp(c, f, u, n) => UpdateMany(h, c, f, u, n).state
    case DeleteOneOp(c, f, n) => DeleteOne(h, c, f, n).state
    case DeleteManyOp(c, f, n) => DeleteMany(h, c, f, n).state
    case CountOp(c, f, n) => Count(h, c, f, n).state
    case CommandOp(cmd, n) => Command(h, cmd, n).state
    case BeginOp(st, n) => BeginTransaction(h, st, n).state
    case CommitOp(st, n) => CommitTransaction(h, st, n).state
    case RollbackOp(st, n) => RollbackTransaction(h, st, n).state
    case ErrorInfoOp => h
    case LastInsertIdOp => h
  }

  /** The handler after a sequence of calls, in order. */
  function Run(h: Handler, ops: seq<Op>): Handler
  {
    if |ops| == 0 then h else Apply(Run(h, ops[..|ops| - 1]), ops[|ops| - 1])
  }

  /** The message of the last absorbed failure in `ops`, if any. */
  function LastFailure(ops: seq<Op>): Option<string>
  {
    if |ops| == 0 then None
    else if Absorbed(ops[|ops| - 1]).Some? then Absorbed(ops[|ops| - 1])
    else LastFailure(ops[..|ops| - 1])
  }

  function SessionsOpened(ops: seq<Op>): nat
  {
    if |ops| == 0 then 0 else SessionsOpened(ops[..|ops| - 1]) + Started(ops[|ops| - 1])
  }

  /** After any sequence of calls the recorded error is the last absorbed
      failure's message; with none, it is what it was before. */
  lemma {:induction false} ErrorRecordIsLastFailure(h: Handler, ops: seq<Op>)
    ensures LastFailure(ops).Some? ==> Run(h, ops).lastError == LastFailure(ops)
    ensures LastFailure(ops).None? ==> Run(h, ops).lastError == h.lastError
  {
    if |ops| > 0 {
      ErrorRecordIsLastFailure(h, ops[..|ops| - 1]);
    }
  }

  /** So `errorInfo` after any sequence of calls reports the last absorbed
      failure when its message is truthy, nothing when it is falsy, and the
      earlier state when nothing failed. */
  lemma ErrorInfoReportsLastFailure(h: Handler, ops: seq<Op>)
    ensures var m := LastFailure(ops);
      && (m.Some? && Truthy(m.value) ==> ErrorInfo(Run(h, ops)) == Some([m.value]))
      && (m.Some? && !Truthy(m.value) ==> ErrorInfo(Run(h, ops)) == None)
      && (m.None? ==> ErrorInfo(Run(h, ops)) == ErrorInfo(h))
  {
    ErrorRecordIsLastFailure(h, ops);
  }

  /** Every transaction call whose `startSession()` succeeded started one
      more session; none is ever reused. */
  lemma {:induction false} SessionsCounted(h: Handler, ops: seq<Op>)
    ensures Run(h, ops).sessionsStarted == h.sessionsStarted + SessionsOpened(ops)
  {
    if |ops| > 0 {
      SessionsCounted(h, ops[..|ops| - 1]);
    }
  }

  // ---------------------------------------- transactions on one threaded session

  /** A handler that keeps the session its transaction was started on. */
  datatype SessionHandler = SessionHandler(handler: Handler, session: Option<nat>)

  datatype SessionStep = SessionStep(state: SessionHandler, issued: seq<ClientCall>, result: Result<()>)

  /** `beginTransaction` that keeps its session for the later commit or
      rollback; the session is kept only once its transaction started. */
  function BeginOnSession(t: SessionHandler, start: Outcome<()>, native: Outcome<()>): (r: SessionStep)
    ensures var s := t.handler.sessionsStarted;
      && (start.Ok? && native.Ok? ==>
            && r.issued == [CallStartSession(s), CallStartTransaction(s)]
            && r.state.session == Some(s) && r.result == Returns(()))
      && (start.Fail? || native.Fail? ==> r.state.session == t.session && r.result.Throws?)
    ensures r.state.handler.lastError == t.handler.lastError
  {
    var step := BeginTransaction(t.handler, start, native);
    var s := t.handler.sessionsStarted;
    var kept := if start.Ok? && native.Ok? then Some(s) else t.session;
    SessionStep(SessionHandler(step.state, kept), step.issued, step.result)
  }

  /** Ends the kept session's transaction with `op`; with no kept session
      nothing is sent and the call fails as MongoDB fails a commit or abort
      on a session without a transaction. */
  function EndOnSession(t: SessionHandler, op: nat -> ClientCall, native: Outcome<()>, prefix: string)
    : (r: SessionStep)
    ensures t.session.None? ==> r == SessionStep(t, [], Throws(prefix + NoTransaction))
    ensures t.session.Some? ==> r.issued == [op(t.session.value)] && r.state.session.None?
    ensures t.session.Some? ==> (r.result.Returns? <==> native.Ok?)
    ensures t.session.Some? && native.Fail? ==> r.result == Throws(prefix + native.message)
    ensures r.state.handler == t.handler
  {
    match t.session
    case None => SessionStep(t, [], Throws(prefix + NoTransaction))
    case Some(s) =>
      var result := match native
        case Ok(_) => Returns(())
        case Fail(m) => Throws(prefix + m);
      SessionStep(SessionHandler(t.handler, None), [op(s)], result)
  }

  /** `commitTransaction` on the kept session. */
  function CommitOnSession(t: SessionHandler, native: Outcome<()>): (r: SessionStep)
    ensures t.session.Some? ==> r.issued == [CallCommitTransaction(t.session.value)]
    ensures t.session.None? ==> r.issued == [] && r.result.Throws?
    ensures r.state.session.None?
  {
    EndOnSession(t, (s: nat) => CallCommitTransaction(s), native, "Failed to commit transaction: ")
  }

  /** `rollbackTransaction` on the kept session. */
  function RollbackOnSession(t: SessionHandler, native: Outcome<()>): (r: SessionStep)
    ensures t.session.Some? ==> r.issued == [CallAbortTransaction(t.session.value)]
    ensures t.session.None? ==> r.issued == [] && r.result.Throws?
    ensures r.state.session.None?
  {
    EndOnSession(t, (s: nat) => CallAbortTransaction(s), native, "Failed to rollback transaction: ")
  }

  /** With the session kept, commit and rollback act on exactly the session
      whose transaction `beginTransaction` started. */
  lemma ThreadedEndUsesBeginSession(t: SessionHandler, b: Outcome<()>, c: Outcome<()>)
    requires b.Ok?
    ensures var begun := BeginOnSession(t, Ok(()), b);
      var s := begun.issued[1].session;
      && begun.issued[1] == CallStartTransaction(s)
      && CommitOnSession(begun.state, c).issued == [CallCommitTransaction(s)]
      && RollbackOnSession(begun.state, c).issued == [CallAbortTransaction(s)]
  {
  }
}

=== FILE: mysql.dfy ===
/** The MySQL handler: a DSN built from the configuration, four SQL builders
    over ordered key/value maps, and the mapping of PDO's row count to a
    boolean. PDO itself is an oracle: each native call's outcome is an
    input, and a PDO failure propagates to the caller with its own message,
    since this handler catches nothing except at connection time. */
module MySql {
  import opened Common
  import opened Text
  import opened Placeholders

  /** A statement as handed to PDO's prepare/execute: SQL text and its
      positional parameters. */
  datatype Prepared = Prepared(sql: string, params: seq<Value>)

  /** A connected handler: its configuration and the DSN it connected with. */
  datatype Handler = Handler(config: Config, dsn: string)

  /** What a builder-backed operation sent to PDO, and what it returned. */
  datatype Exchange<+T> = Exchange(issued: Prepared, result: Result<T>)

  /** The columns `select` reads when none are given. */
  const DefaultColumns: seq<string> := ["*"]

  /** Each `?` of the statement belongs, in order, to one entry: the text
      before the i-th `?` ends with `key_i = `, and the i-th parameter is
      that entry's value. */
  predicate Binds(st: Prepared, entries: Assoc)
  {
    PairsWith(Split(st.sql, Mark), Keys(entries)) && st.params == Values(entries)
  }

  // ---------------------------------------------------------------- connect

  /** `mysql:host=H;dbname=D;port=P` from the `host`, `database` and `port`
      keys; a missing key interpolates as the empty string, and there is no
      port default. */
  function ConnectionString(config: Config): (dsn: string)
    ensures var host := Interp(Lookup(config, "host"));
            var db := Interp(Lookup(config, "database"));
            var port := Interp(Lookup(config, "port"));
            ';' !in host + db + port ==>
              Split(dsn, ';') == ["mysql:host=" + host, "dbname=" + db, "port=" + port]
    ensures !IsSet(config, "port") ==> EndsWith(dsn, ";port=")
  {
    var host := Interp(Lookup(config, "host"));
    var db := Interp(Lookup(config, "database"));
    var port := Interp(Lookup(config, "port"));
    PdoDsnFields("mysql", host, db, port);
    assert "mysql" + ":host=" + host == "mysql:host=" + host;
    PdoDsn("mysql", host, db, port)
  }

  /** Connecting: a PDO failure becomes an exception with the
      `MySQL Connection Failed: ` prefix. */
  function Connect(config: Config, native: Outcome<()>): (r: Result<Handler>)
    ensures r.Returns? <==> native.Ok?
    ensures r.Returns? ==> r.value.config == config && r.value.dsn == ConnectionString(config)
    ensures native.Fail? ==> r.message == "MySQL Connection Failed: " + native.message
  {
    match native
    case Ok(_) => Returns(Handler(config, ConnectionString(config)))
    case Fail(m) => Throws("MySQL Connection Failed: " + m)
  }

  // ------------------------------------------------------------------ query

  /** `query($query, $params)`: prepare and execute; the executed statement
      is returned and a PDO failure propagates unchanged. */
  function Query(sql: string, params: seq<Value>, native: Outcome<()>): (r: Result<Prepared>)
    ensures native.Ok? ==> r == Returns(Prepared(sql, params))
    ensures native.Fail? ==> r == Throws(native.message)
  {
    match native
    case Ok(_) => Returns(Prepared(sql, params))
    case Fail(m) => Throws(m)
  }

  /** `rowCount() > 0`, with a PDO failure propagating unchanged. */
  function Affected(rowCount: Outcome<int>): (r: Result<bool>)
    ensures r.Returns? <==> rowCount.Ok?
    ensures r.Returns? ==> (r.value <==> rowCount.value > 0)
    ensures rowCount.Fail? ==> r.message == rowCount.message
  {
    match rowCount
    case Ok(n) => Returns(n > 0)
    case Fail(m) => Throws(m)
  }

  // ----------------------------------------------------------------- insert

  function InsertSql(table: string, columns: seq<string>): string
  {
    "INSERT INTO " + table + " (" + Join(", ", columns) + ") VALUES ("
      + Join(", ", Marks(|columns|)) + ")"
  }

  /** The pieces of the INSERT text between placeholders: the head that
      names the columns, then one `, ` per further placeholder, then `)`. */
  lemma InsertSqlPieces(table: string, columns: seq<string>)
    requires AllMarkFree([table] + columns)
    ensures |columns| == 0 ==> Split(InsertSql(table, columns), Mark) == [InsertSql(table, columns)]
    ensures |columns| > 0 ==>
      Split(InsertSql(table, columns), Mark)
        == [InsertHead(table, columns)] + Repeat(", ", |columns| - 1) + [")"]
  {
    MarkFreeParts(table, columns, []);
    assert [table] + columns + [] == [table] + columns;
    JoinMarkFree(", ", columns);
    var head := InsertHead(table, columns);
    assert MarkFree(head);
    var marks := Join(", ", Marks(|columns|));
    assert InsertSql(table, columns) == head + (marks + ")");
    if |columns| == 0 {
      assert marks == "";
      SplitFree(InsertSql(table, columns), Mark);
    } else {
      InsertMarksPieces(head, |columns|);
    }
  }

  /** Conversely, the pieces determine the text: joining them with `?`
      gives back the INSERT statement, so it is exactly the head, one `?`
      per column separated by `, `, and `)`. */
  lemma InsertSqlFromPieces(table: string, columns: seq<string>)
    requires AllMarkFree([table] + columns)
    ensures |columns| == 0 ==> InsertSql(table, columns) == InsertHead(table, columns) + ")"
    ensures |columns| > 0 ==>
      InsertSql(table, columns)
        == Join([Mark], [InsertHead(table, columns)] + Repeat(", ", |columns| - 1) + [")"])
  {
    InsertSqlPieces(table, columns);
    SplitJoin(InsertSql(table, columns), Mark);
    if |columns| == 0 {
      assert Marks(0) == [];
      assert Join(", ", Marks(0)) == "";
    }
  }

  function InsertHead(table: string, columns: seq<string>): string
  {
    "INSERT INTO " + table + " (" + Join(", ", columns) + ") VALUES ("
  }

  lemma InsertMarksPieces(head: string, n: nat)
    requires n > 0 && MarkFree(head)
    ensures Split(head + (Join(", ", Marks(n)) + ")"), Mark) == [head] + Repeat(", ", n - 1) + [")"]
  {
    var marks := Join(", ", Marks(n));
    SplitMarks(", ", n, ")");
    SplitFree(")", Mark);
    SplitPrefix(head, marks + ")", Mark);
    var s := Split(marks + ")", Mark);
    assert s == [""] + Repeat(", ", n - 1) + [")"];
    assert head + s[0] == head;
    assert s[1..] == Repeat(", ", n - 1) + [")"];
  }

  /** `insert($table, $data)`: one placeholder per key, the column list
      naming the keys in order, the values as parameters in key order. */
  function InsertStatement(table: string, data: Assoc): (st: Prepared)
    ensures st.params == Values(data)
    ensures AllMarkFree([table] + Keys(data)) ==> Count(st.sql, Mark) == |data|
    ensures AllMarkFree([table] + Keys(data)) && |data| > 0 ==>
      Split(st.sql, Mark) == [InsertHead(table, Keys(data))] + Repeat(", ", |data| - 1) + [")"]
    ensures AllMarkFree([table] + Keys(data)) && |data| == 0 ==> st.sql == InsertHead(table, []) + ")"
  {
    var sql := InsertSql(table, Keys(data));
    if AllMarkFree([table] + Keys(data)) then
      InsertSqlPieces(table, Keys(data));
      InsertSqlFromPieces(table, Keys(data));
      Prepared(sql, Values(data))
    else
      Prepared(sql, Values(data))
  }

  /** `insert`: true iff the statement affected a row. */
  function Insert(table: string, data: Assoc, rowCount: Outcome<int>): (x: Exchange<bool>)
    ensures x.issued == InsertStatement(table, data)
    ensures x.result.Returns? <==> rowCount.Ok?
    ensures x.result.Returns? ==> (x.result.value <==> rowCount.value > 0)
    ensures rowCount.Fail? ==> x.result.message == rowCount.message
  {
    Exchange(InsertStatement(table, data), Affected(rowCount))
  }

  // ----------------------------------------------------------------- update

  function UpdateSql(table: string, dataKeys: seq<string>, conditionKeys: seq<string>): string
  {
    "UPDATE " + table + " SET " + Join(", ", Assignments(dataKeys))
      + " WHERE " + Join(" AND ", Assignments(conditionKeys))
  }

  lemma UpdateSqlPairs(table: string, dataKeys: seq<string>, conditionKeys: seq<string>)
    requires MarkFree(table) && AllMarkFree(dataKeys) && AllMarkFree(conditionKeys)
    ensures PairsWith(Split(UpdateSql(table, dataKeys, conditionKeys), Mark), dataKeys + conditionKeys)
  {
    var setClause := Join(", ", Assignments(dataKeys));
    var whereClause := Join(" AND ", Assignments(conditionKeys));
    SplitFree("", Mark);
    assert PairsWith(Split("", Mark), []);
    PairsAssignments(" AND ", conditionKeys, "", []);
    assert whereClause + "" == whereClause && conditionKeys + [] == conditionKeys;
    PairsPrefix(" WHERE ", whereClause, conditionKeys);
    PairsAssignments(", ", dataKeys, " WHERE " + whereClause, conditionKeys);
    PairsPrefix("UPDATE " + table + " SET ", setClause + (" WHERE " + whereClause), dataKeys + conditionKeys);
    assert UpdateSql(table, dataKeys, conditionKeys)
      == ("UPDATE " + table + " SET ") + (setClause + (" WHERE " + whereClause));
  }

  /** The UPDATE text between placeholders: `UPDATE t SET ` glued onto
      the first SET item's `key = `, `, key = ` for each later one, then
      ` WHERE ` glued onto the first condition's `key = `, ` AND key = `
      for each later one, and an empty tail. */
  function UpdatePieces(table: string, dataKeys: seq<string>, conditionKeys: seq<string>): seq<string>
  {
    Glue("UPDATE " + table + " SET ",
         ItemHeads(", ", dataKeys) + Glue(" WHERE ", ItemHeads(" AND ", conditionKeys) + [""]))
  }

  /** The UPDATE text splits at its placeholders into exactly those pieces. */
  lemma UpdateSqlExactPieces(table: string, dataKeys: seq<string>, conditionKeys: seq<string>)
    requires MarkFree(table) && AllMarkFree(dataKeys) && AllMarkFree(conditionKeys)
    ensures Split(UpdateSql(table, dataKeys, conditionKeys), Mark) == UpdatePieces(table, dataKeys, conditionKeys)
  {
    var lead := "UPDATE " + table + " SET ";
    var setClause := Join(", ", Assignments(dataKeys));
    var whereItems := Join(" AND ", Assignments(conditionKeys));
    var heads := ItemHeads(" AND ", conditionKeys);
    calc {
      Split(UpdateSql(table, dataKeys, conditionKeys), Mark);
      { assert UpdateSql(table, dataKeys, conditionKeys) == lead + (setClause + (" WHERE " + whereItems)); }
      Split(lead + (setClause + (" WHERE " + whereItems)), Mark);
      { assert MarkFree(lead); GluePrefix(lead, setClause + (" WHERE " + whereItems)); }
      Glue(lead, Split(setClause + (" WHERE " + whereItems), Mark));
      { ItemPieces(", ", dataKeys, " WHERE " + whereItems); }
      Glue(lead, ItemHeads(", ", dataKeys) + Split(" WHERE " + whereItems, Mark));
      { GluePrefix(" WHERE ", whereItems); }
      Glue(lead, ItemHeads(", ", dataKeys) + Glue(" WHERE ", Split(whereItems, Mark)));
      { ItemPieces(" AND ", conditionKeys, ""); SplitFree("", Mark); assert whereItems + "" == whereItems; }
      Glue(lead, ItemHeads(", ", dataKeys) + Glue(" WHERE ", heads + [""]));
    }
  }


  /** The pieces one by one: the statement names the table after `UPDATE`,
      separates SET items by `, ` and WHERE items by ` AND `, and ends with
      the last condition's `?` (or with ` WHERE ` when there is none). */
  lemma UpdatePiecesShape(table: string, dataKeys: seq<string>, conditionKeys: seq<string>)
    ensures var ps := UpdatePieces(table, dataKeys, conditionKeys);
      var lead := "UPDATE " + table + " SET ";
      var where := if |dataKeys| == 0 then lead + " WHERE " else " WHERE ";
      var d := |dataKeys|;
      var c := |conditionKeys|;
      && |ps| == d + c + 1
      && (d > 0 ==> ps[0] == lead + dataKeys[0] + " = ")
      && (forall i :: 0 < i < d ==> ps[i] == ", " + dataKeys[i] + " = ")
      && (c > 0 ==> ps[d] == where + conditionKeys[0] + " = ")
      && (forall i :: 0 < i < c ==> ps[d + i] == " AND " + conditionKeys[i] + " = ")
      && (c > 0 ==> ps[d + c] == "")
      && (c == 0 ==> ps[d] == where)
  {
    var lead := "UPDATE " + table + " SET ";
    if |dataKeys| == 0 {
      UpdatePiecesNoData(table, dataKeys, conditionKeys);
      GluedItemsShape(lead + " WHERE ", " AND ", conditionKeys);
    } else {
      UpdatePiecesWithData(table, dataKeys, conditionKeys);
      GluedItemsShape(" WHERE ", " AND ", conditionKeys);
    }
  }

  lemma UpdatePiecesNoData(table: string, dataKeys: seq<string>, conditionKeys: seq<string>)
    requires |dataKeys| == 0
    ensures UpdatePieces(table, dataKeys, conditionKeys)
      == Glue("UPDATE " + table + " SET " + " WHERE ", ItemHeads(" AND ", conditionKeys) + [""])
  {
    var inner := ItemHeads(" AND ", conditionKeys) + [""];
    assert ItemHeads(", ", dataKeys) + Glue(" WHERE ", inner) == Glue(" WHERE ", inner);
    GlueTwice("UPDATE " + table + " SET ", " WHERE ", inner);
  }

  lemma UpdatePiecesWithData(table: string, dataKeys: seq<string>, conditionKeys: seq<string>)
    requires |dataKeys| > 0
    ensures var ps := UpdatePieces(table, dataKeys, conditionKeys);
      var tail := Glue(" WHERE ", ItemHeads(" AND ", conditionKeys) + [""]);
      && |ps| == |dataKeys| + |tail|
      && ps[0] == "UPDATE " + table + " SET " + dataKeys[0] + " = "
      && (forall i :: 0 < i < |dataKeys| ==> ps[i] == ", " + dataKeys[i] + " = ")
      && (forall j :: 0 <= j < |tail| ==> ps[|dataKeys| + j] == tail[j])
  {
    var heads := ItemHeads(", ", dataKeys);
    var tail := Glue(" WHERE ", ItemHeads(" AND ", conditionKeys) + [""]);
    GlueAppend("UPDATE " + table + " SET ", heads, tail);
  }


  /** `update($table, $data, $conditions)`: the SET items then the WHERE
      items, each `?` paired with its key, the data values followed by the
      condition values as parameters. */
  function UpdateStatement(table: string, data: Assoc, conditions: Assoc): (st: Prepared)
    ensures AllMarkFree([table] + Keys(data) + Keys(conditions)) ==> Binds(st, data + conditions)
    ensures AllMarkFree([table] + Keys(data) + Keys(conditions)) ==> Count(st.sql, Mark) == |st.params|
    ensures AllMarkFree([table] + Keys(data) + Keys(conditions)) ==>
      && Split(st.sql, Mark) == UpdatePieces(table, Keys(data), Keys(conditions))
      && st.sql == Join([Mark], UpdatePieces(table, Keys(data), Keys(conditions)))
    ensures |conditions| == 0 ==> EndsWith(st.sql, " WHERE ")
  {
    var sql := UpdateSql(table, Keys(data), Keys(conditions));
    KeysAppend(data, conditions);
    ValuesAppend(data, conditions);
    MarkFreeParts(table, Keys(data), Keys(conditions));
    EmptyClause(" AND ", Keys(conditions), "UPDATE " + table + " SET " + Join(", ", Assignments(Keys(data))) + " WHERE ");
    if AllMarkFree([table] + Keys(data) + Keys(conditions)) then
      UpdateSqlPairs(table, Keys(data), Keys(conditions));
      UpdateSqlExactPieces(table, Keys(data), Keys(conditions));
      SplitJoin(sql, Mark);
      Prepared(sql, Values(data) + Values(conditions))
    else
      Prepared(sql, Values(data) + Values(conditions))
  }

  /** An empty WHERE item list leaves the SQL ending in its `WHERE `. */
  lemma EmptyClause(sep: string, keys: seq<string>, before: string)
    ensures |keys| == 0 ==> before + Join(sep, Assignments(keys)) == before
  {
  }

  lemma MarkFreeParts(table: string, a: seq<string>, b: seq<string>)
    ensures AllMarkFree([table] + a + b) ==> MarkFree(table) && AllMarkFree(a) && AllMarkFree(b)
  {
    if AllMarkFree([table] + a + b) {
      assert ([table] + a + b)[0] == table;
      forall i | 0 <= i < |a| ensures MarkFree(a[i]) {
        assert ([table] + a + b)[i + 1] == a[i];
      }
      forall i | 0 <= i < |b| ensures MarkFree(b[i]) {
        assert ([table] + a + b)[i + 1 + |a|] == b[i];
      }
    }
  }

  /** `update`: true iff the statement affected a row. */
  function Update(table: string, data: Assoc, conditions: Assoc, rowCount: Outcome<int>): (x: Exchange<bool>)
    ensures x.issued == UpdateStatement(table, data, conditions)
    ensures x.result.Returns? <==> rowCount.Ok?
    ensures x.result.Returns? ==> (x.result.value <==> rowCount.value > 0)
    ensures rowCount.Fail? ==> x.result.message == rowCount.message
  {
    Exchange(UpdateStatement(table, data, conditions), Affected(rowCount))
  }

  // ----------------------------------------------------------------- delete

  function DeleteSql(table: string, conditionKeys: seq<string>): string
  {
    "DELETE FROM " + table + " WHERE " + Join(" AND ", Assignments(conditionKeys))
  }

  lemma DeleteSqlPairs(table: string, conditionKeys: seq<string>)
    requires MarkFree(table) && AllMarkFree(conditionKeys)
    ensures PairsWith(Split(DeleteSql(table, conditionKeys), Mark), conditionKeys)
  {
    var whereClause := Join(" AND ", Assignments(conditionKeys));
    SplitFree("", Mark);
    assert PairsWith(Split("", Mark), []);
    PairsAssignments(" AND ", conditionKeys, "", []);
    assert whereClause + "" == whereClause && conditionKeys + [] == conditionKeys;
    PairsPrefix("DELETE FROM " + table + " WHERE ", whereClause, conditionKeys);
  }

  /** The DELETE text between placeholders: `DELETE FROM t WHERE ` glued
      onto the first condition's `key = `, ` AND key = ` for each later
      one, and an empty tail. */
  function DeletePieces(table: string, conditionKeys: seq<string>): seq<string>
  {
    Glue("DELETE FROM " + table + " WHERE ", ItemHeads(" AND ", conditionKeys) + [""])
  }

  /** The DELETE text splits at its placeholders into exactly those pieces. */
  lemma DeleteSqlExactPieces(table: string, conditionKeys: seq<string>)
    requires MarkFree(table) && AllMarkFree(conditionKeys)
    ensures Split(DeleteSql(table, conditionKeys), Mark) == DeletePieces(table, conditionKeys)
  {
    var lead := "DELETE FROM " + table + " WHERE ";
    assert MarkFree(lead);
    var whereItems := Join(" AND ", Assignments(conditionKeys));
    ItemPieces(" AND ", conditionKeys, "");
    SplitFree("", Mark);
    assert whereItems + "" == whereItems;
    GluePrefix(lead, whereItems);
  }

  /** The pieces one by one: the table follows `DELETE FROM`, the WHERE
      items are separated by ` AND `, and with no condition the text is
      just `DELETE FROM t WHERE `. */
  lemma DeletePiecesShape(table: string, conditionKeys: seq<string>)
    ensures var ps := DeletePieces(table, conditionKeys);
      var lead := "DELETE FROM " + table + " WHERE ";
      var c := |conditionKeys|;
      && |ps| == c + 1
      && (c > 0 ==> ps[0] == lead + conditionKeys[0] + " = ")
      && (forall i :: 0 < i < c ==> ps[i] == " AND " + conditionKeys[i] + " = ")
      && (c > 0 ==> ps[c] == "")
      && (c == 0 ==> ps == [lead])
  {
    GluedItemsShape("DELETE FROM " + table + " WHERE ", " AND ", conditionKeys);
  }


  /** `delete($table, $conditions)`: the WHERE items, each `?` paired with
      its key, the condition values as parameters. */
  function DeleteStatement(table: string, conditions: Assoc): (st: Prepared)
    ensures AllMarkFree([table] + Keys(conditions)) ==> Binds(st, conditions)
    ensures AllMarkFree([table] + Keys(conditions)) ==> Count(st.sql, Mark) == |st.params|
    ensures AllMarkFree([table] + Keys(conditions)) ==>
      && Split(st.sql, Mark) == DeletePieces(table, Keys(conditions))
      && st.sql == Join([Mark], DeletePieces(table, Keys(conditions)))
    ensures |conditions| == 0 ==> EndsWith(st.sql, " WHERE ")
  {
    var sql := DeleteSql(table, Keys(conditions));
    MarkFreeParts(table, Keys(conditions), []);
    assert [table] + Keys(conditions) + [] == [table] + Keys(conditions);
    EmptyClause(" AND ", Keys(conditions), "DELETE FROM " + table + " WHERE ");
    if AllMarkFree([table] + Keys(conditions)) then
      DeleteSqlPairs(table, Keys(conditions));
      DeleteSqlExactPieces(table, Keys(conditions));
      SplitJoin(sql, Mark);
      Prepared(sql, Values(conditions))
    else
      Prepared(sql, Values(conditions))
  }

  /** `delete`: true iff the statement affected a row. */
  function Delete(table: string, conditions: Assoc, rowCount: Outcome<int>): (x: Exchange<bool>)
    ensures x.issued == DeleteStatement(table, conditions)
    ensures x.result.Returns? <==> rowCount.Ok?
    ensures x.result.Returns? ==> (x.result.value <==> rowCount.value > 0)
    ensures rowCount.Fail? ==> x.result.message == rowCount.message
  {
    Exchange(DeleteStatement(table, conditions), Affected(rowCount))
  }

  // ----------------------------------------------------------------- select

  function WhereClause(conditionKeys: seq<string>): string
  {
    if |conditionKeys| > 0 then "WHERE " + Join(" AND ", Assignments(conditionKeys)) else ""
  }

  function SelectSql(table: string, columns: seq<string>, conditionKeys: seq<string>): string
  {
    "SELECT " + Join(", ", columns) + " FROM " + table + " " + WhereClause(conditionKeys)
  }

  lemma SelectSqlPairs(table: string, columns: seq<string>, conditionKeys: seq<string>)
    requires MarkFree(table) && AllMarkFree(columns) && AllMarkFree(conditionKeys)
    ensures PairsWith(Split(SelectSql(table, columns, conditionKeys), Mark), conditionKeys)
  {
    JoinMarkFree(", ", columns);
    var head := "SELECT " + Join(", ", columns) + " FROM " + table + " ";
    assert MarkFree(head);
    var whereClause := WhereClause(conditionKeys);
    if |conditionKeys| == 0 {
      SplitFree(head + whereClause, Mark);
      assert head + whereClause == head;
    } else {
      var items := Join(" AND ", Assignments(conditionKeys));
      SplitFree("", Mark);
      assert PairsWith(Split("", Mark), []);
      PairsAssignments(" AND ", conditionKeys, "", []);
      assert items + "" == items && conditionKeys + [] == conditionKeys;
      PairsPrefix("WHERE ", items, conditionKeys);
      PairsPrefix(head, whereClause, conditionKeys);
    }
  }

  /** The SELECT text between placeholders: `SELECT c1, c2 FROM t ` (the
      columns joined by `, `) glued onto `WHERE ` and the first
      condition's `key = `, ` AND key = ` for each later one, and an empty
      tail; with no condition, the head alone. */
  function SelectPieces(table: string, columns: seq<string>, conditionKeys: seq<string>): seq<string>
  {
    Glue("SELECT " + Join(", ", columns) + " FROM " + table + " ",
         if |conditionKeys| == 0 then [""] else Glue("WHERE ", ItemHeads(" AND ", conditionKeys) + [""]))
  }

  /** The SELECT text splits at its placeholders into exactly those pieces. */
  lemma SelectSqlExactPieces(table: string, columns: seq<string>, conditionKeys: seq<string>)
    requires MarkFree(table) && AllMarkFree(columns) && AllMarkFree(conditionKeys)
    ensures Split(SelectSql(table, columns, conditionKeys), Mark) == SelectPieces(table, columns, conditionKeys)
  {
    JoinMarkFree(", ", columns);
    var lead := "SELECT " + Join(", ", columns) + " FROM " + table + " ";
    assert MarkFree(lead);
    var whereClause := WhereClause(conditionKeys);
    if |conditionKeys| == 0 {
      assert lead + whereClause == lead;
      SplitFree("", Mark);
      GluePrefix(lead, "");
      assert lead + "" == lead;
    } else {
      var whereItems := Join(" AND ", Assignments(conditionKeys));
      ItemPieces(" AND ", conditionKeys, "");
      SplitFree("", Mark);
      assert whereItems + "" == whereItems;
      GluePrefix("WHERE ", whereItems);
      GluePrefix(lead, whereClause);
    }
    assert SelectSql(table, columns, conditionKeys) == lead + whereClause;
  }

  /** The pieces one by one: the columns joined by `, ` and the table sit
      between `SELECT` and the first `?`, and the WHERE items are separated
      by ` AND `. */
  lemma SelectPiecesShape(table: string, columns: seq<string>, conditionKeys: seq<string>)
    ensures var ps := SelectPieces(table, columns, conditionKeys);
      var lead := "SELECT " + Join(", ", columns) + " FROM " + table + " ";
      var c := |conditionKeys|;
      && |ps| == c + 1
      && (c > 0 ==> ps[0] == lead + "WHERE " + conditionKeys[0] + " = ")
      && (forall i :: 0 < i < c ==> ps[i] == " AND " + conditionKeys[i] + " = ")
      && (c > 0 ==> ps[c] == "")
      && (c == 0 ==> ps == [lead])
  {
    var lead := "SELECT " + Join(", ", columns) + " FROM " + table + " ";
    if |conditionKeys| > 0 {
      GlueTwice(lead, "WHERE ", ItemHeads(" AND ", conditionKeys) + [""]);
      GluedItemsShape(lead + "WHERE ", " AND ", conditionKeys);
    } else {
      assert lead + "" == lead;
    }
  }



  /** `select($table, $columns, $conditions)`: the columns joined by `, `,
      each `?` paired with its condition key, the condition values as
      parameters; with no conditions there is no WHERE clause at all and
      the text ends in the space that preceded it. */
  function SelectStatement(table: string, columns: seq<string>, conditions: Assoc): (st: Prepared)
    ensures AllMarkFree([table] + columns + Keys(conditions)) ==> Binds(st, conditions)
    ensures AllMarkFree([table] + columns + Keys(conditions)) ==> Count(st.sql, Mark) == |st.params|
    ensures AllMarkFree([table] + columns + Keys(conditions)) ==>
      && Split(st.sql, Mark) == SelectPieces(table, columns, Keys(conditions))
      && st.sql == Join([Mark], SelectPieces(table, columns, Keys(conditions)))
    ensures |conditions| == 0 ==> EndsWith(st.sql, " FROM " + table + " ")
  {
    var sql := SelectSql(table, columns, Keys(conditions));
    MarkFreeParts(table, columns, Keys(conditions));
    if AllMarkFree([table] + columns + Keys(conditions)) then
      SelectSqlPairs(table, columns, Keys(conditions));
      SelectSqlExactPieces(table, columns, Keys(conditions));
      SplitJoin(sql, Mark);
      Prepared(sql, Values(conditions))
    else
      Prepared(sql, Values(conditions))
  }

  /** `select`: the fetched rows; `None` stands for the omitted `$columns`
      argument, which reads every column. */
  function Select(table: string, columns: Option<seq<string>>, conditions: Assoc, rows: Outcome<seq<Assoc>>)
    : (x: Exchange<seq<Assoc>>)
    ensures x.issued == SelectStatement(table, if columns.Some? then columns.value else DefaultColumns, conditions)
    ensures rows.Ok? ==> x.result == Returns(rows.value)
    ensures rows.Fail? ==> x.result == Throws(rows.message)
  {
    var cols := if columns.Some? then columns.value else DefaultColumns;
    var result := match rows
      case Ok(rs) => Returns(rs)
      case Fail(m) => Throws(m);
    Exchange(SelectStatement(table, cols, conditions), result)
  }

  /** With the columns omitted every column is read: the text starts with
      `SELECT * FROM `. */
  lemma SelectDefaultColumns(table: string, conditions: Assoc, rows: Outcome<seq<Assoc>>)
    ensures var sql := Select(table, None, conditions, rows).issued.sql;
      |sql| >= 14 && sql[..14] == "SELECT * FROM "
  {
    assert Join(", ", DefaultColumns) == "*";
  }

  // ------------------------------------------------------------------ close

  /** The engine's error for storing null in the `PDO`-typed connection
      property. */
  const CloseError: string :=
    "Cannot assign null to property SamsmithKruz\\Database\\Drivers\\MySQLDatabase::$connection of type PDO"

  /** `close()`: the assignment of null is refused by the property's type,
      so the call always throws and the connection stays as it was. */
  function Close(h: Handler): (r: (Handler, Result<()>))
    ensures r.0 == h
    ensures r.1.Throws? && r.1.message == CloseError
  {
    (h, Throws(CloseError))
  }

  // ----------------------------------------------------------- transactions

  /** The PDO transaction primitive a handler method calls. */
  datatype TransactionCall = PdoBeginTransaction | PdoCommit | PdoRollBack

  /** What a transaction method did: the one primitive it called and how it
      ended. */
  datatype TransactionStep = TransactionStep(issued: TransactionCall, result: Result<()>)

  /** Calling one primitive: the method returns nothing when PDO succeeds,
      and a PDO failure propagates unchanged. */
  function Transaction(call: TransactionCall, native: Outcome<bool>): (r: TransactionStep)
    ensures r.issued == call
    ensures r.result.Returns? <==> native.Ok?
    ensures native.Fail? ==> r.result.message == native.message
  {
    match native
    case Ok(_) => TransactionStep(call, Returns(()))
    case Fail(m) => TransactionStep(call, Throws(m))
  }

  /** `beginTransaction()` calls PDO's `beginTransaction`. */
  function BeginTransaction(native: Outcome<bool>): (r: TransactionStep)
    ensures r.issued == PdoBeginTransaction
    ensures r.result.Returns? <==> native.Ok?
    ensures native.Fail? ==> r.result.message == native.message
  {
    Transaction(PdoBeginTransaction, native)
  }

  /** `commitTransaction()` calls PDO's `commit`. */
  function CommitTransaction(native: Outcome<bool>): (r: TransactionStep)
    ensures r.issued == PdoCommit
    ensures r.result.Returns? <==> native.Ok?
    ensures native.Fail? ==> r.result.message == native.message
  {
    Transaction(PdoCommit, native)
  }

  /** `rollbackTransaction()` calls PDO's `rollBack`. */
  function RollbackTransaction(native: Outcome<bool>): (r: TransactionStep)
    ensures r.issued == PdoRollBack
    ensures r.result.Returns? <==> native.Ok?
    ensures native.Fail? ==> r.result.message == native.message
  {
    Transaction(PdoRollBack, native)
  }
}

=== FILE: pgsql.dfy ===
/** The PostgreSQL handler as a small state machine over PDO. The handler
    holds its connection parameters and at most one current statement. PDO
    is an oracle: each native call's outcome is an input, and each method
    reports the PDO calls it made, in order. Every PDO failure inside a
    `try` is rethrown as an exception whose message is a fixed,
    operation-specific prefix followed by PDO's own message. */
module Postgres {
  import opened Common
  import opened Text

  /** PDO's parameter-type constants. */
  const PARAM_NULL: int := 0
  const PARAM_INT: int := 1
  const PARAM_STR: int := 2
  const PARAM_BOOL: int := 5

  const DefaultPort: int := 5432
  const DefaultIsolationLevel: string := "SERIALIZABLE"
  const NoStatement: string := "No statement initialized"
  const NoErrorMessage: string := "No error message"

  /** One value bound into the current statement, with its PDO type. */
  datatype Binding = Binding(param: string, value: Value, kind: Value)

  /** The current prepared statement: its SQL and the values bound so far. */
  datatype Statement = Statement(sql: string, bindings: seq<Binding>)

  /** The handler: connection parameters, the DSN PDO was opened with, and
      at most one current statement. */
  datatype Handler = Handler(
    host: Value, user: Value, pass: Value, dbname: Value, port: Value,
    dsn: string, stmt: Option<Statement>)

  /** A call into PDO (on the connection or on the current statement). */
  datatype PdoCall =
    | Prepare(sql: string)
    | BindValue(param: string, value: Value, kind: Value)
    | StmtExecute
    | StmtFetchAll
    | StmtFetch
    | StmtFetchColumn(column: Value)
    | StmtRowCount
    | StmtErrorInfo
    | DbExec(sql: string)
    | DbBeginTransaction
    | DbCommit
    | DbRollBack
    | DbLastInsertId
    | DbServerVersion
    | DbErrorCode
    | DbErrorInfo

  /** One handler method: the handler afterwards, the PDO calls made, and
      what the method returned or threw. */
  datatype Step<+T> = Step(state: Handler, issued: seq<PdoCall>, result: Result<T>)

  /** The connection parameters agree: only the current statement may differ. */
  predicate SameConnection(a: Handler, b: Handler)
  {
    a.host == b.host && a.user == b.user && a.pass == b.pass
    && a.dbname == b.dbname && a.port == b.port && a.dsn == b.dsn
  }

  /** The engine's message for a method called while no statement exists. */
  function NullCall(name: string): string
  {
    "Call to a member function " + name + "() on null"
  }

  /** The engine's message when a method returns a value of type `given`
      that its declared return type neither accepts nor coerces. */
  function BadReturn(name: string, declared: string, given: string): string
  {
    "SamsmithKruz\\Database\\Drivers\\PostgreSQLDatabase::" + name
      + "(): Return value must be of type " + declared + ", " + given + " returned"
  }

  /** Returning `v` from a method declared `: string` in PHP's coercive
      mode: a string passes, an integer, boolean or float is converted as
      `(string)` converts it, and null or an array is a type error. */
  function StringReturn(name: string, v: Value): (r: Result<string>)
    ensures r.Returns? <==> !v.VNull? && !v.VArray?
    ensures r.Returns? ==> r.value == Interp(v)
    ensures v.VNull? ==> r == Throws(BadReturn(name, "string", "null"))
    ensures v.VArray? ==> r == Throws(BadReturn(name, "string", "array"))
    ensures v == VBool(false) ==> r == Returns("")
    ensures v.VStr? ==> r == Returns(v.s)
  {
    match v
    case VNull => Throws(BadReturn(name, "string", "null"))
    case VArray(_) => Throws(BadReturn(name, "string", "array"))
    case _ => Returns(Interp(v))
  }

  // ---------------------------------------------------------------- connect

  /** `pgsql:host=H;dbname=D;port=P`, the port defaulted when absent or
      null. */
  function ConnectionString(config: Config): (dsn: string)
    ensures var host := Interp(Lookup(config, "host"));
            var db := Interp(Lookup(config, "dbname"));
            var port := Interp(Coalesce(config, "port", VInt(DefaultPort)));
            ';' !in host + db + port ==>
              Split(dsn, ';') == ["pgsql:host=" + host, "dbname=" + db, "port=" + port]
  {
    var host := Interp(Lookup(config, "host"));
    var db := Interp(Lookup(config, "dbname"));
    var port := Interp(Coalesce(config, "port", VInt(DefaultPort)));
    PdoDsnFields("pgsql", host, db, port);
    assert "pgsql" + ":host=" + host == "pgsql:host=" + host;
    PdoDsn("pgsql", host, db, port)
  }

  /** With no port configured (absent or null) the DSN names port 5432. */
  lemma DefaultPortDsn(config: Config)
    requires !IsSet(config, "port")
    ensures EndsWith(ConnectionString(config), ";port=5432")
  {
    var host := Interp(Lookup(config, "host"));
    var db := Interp(Lookup(config, "dbname"));
    assert Coalesce(config, "port", VInt(DefaultPort)) == VInt(DefaultPort);
    DefaultPortText();
    assert ConnectionString(config) == PdoDsn("pgsql", host, db, "5432");
    PdoDsnFields("pgsql", host, db, "5432");
    assert ";port=" + "5432" == ";port=5432";
  }

  lemma DefaultPortText()
    ensures Interp(VInt(DefaultPort)) == "5432"
  {
    assert NatToString(5) == "5";
    assert NatToString(54) == NatToString(5) + "4";
    assert NatToString(543) == NatToString(54) + "3";
    assert NatToString(5432) == NatToString(543) + "2";
  }

  /** The constructor: it records the parameters (port defaulted), opens
      PDO with the DSN built from the recorded host, database and port, and
      holds no statement; a PDO failure becomes `Connection failed: ...`. */
  function Connect(config: Config, native: Outcome<()>): (r: Result<Handler>)
    ensures r.Returns? <==> native.Ok?
    ensures r.Returns? ==>
      && r.value.stmt.None?
      && r.value.host == Lookup(config, "host")
      && r.value.user == Lookup(config, "user")
      && r.value.pass == Lookup(config, "pass")
      && r.value.dbname == Lookup(config, "dbname")
      && r.value.port == Coalesce(config, "port", VInt(DefaultPort))
      && r.value.dsn == ConnectionString(config)
    ensures r.Returns? ==>
      var host := Interp(r.value.host);
      var db := Interp(r.value.dbname);
      var port := Interp(r.value.port);
      ';' !in host + db + port ==>
        Split(r.value.dsn, ';') == ["pgsql:host=" + host, "dbname=" + db, "port=" + port]
    ensures native.Fail? ==> r.message == "Connection failed: " + native.message
  {
    match native
    case Ok(_) =>
      Returns(Handler(Lookup(config, "host"), Lookup(config, "user"), Lookup(config, "pass"),
                      Lookup(config, "dbname"), Coalesce(config, "port", VInt(DefaultPort)),
                      ConnectionString(config), None))
    case Fail(m) => Throws("Connection failed: " + m)
  }

  // ------------------------------------------------------- query and bind

  /** `query($sql)`: on success the new statement replaces the current one
      and the handler itself is returned for chaining; on failure the
      current statement is kept and `Query preparation failed: ` is thrown. */
  function Query(h: Handler, sql: string, native: Outcome<()>): (r: Step<Handler>)
    ensures r.issued == [Prepare(sql)]
    ensures SameConnection(r.state, h)
    ensures native.Ok? ==> r.state.stmt == Some(Statement(sql, [])) && r.result == Returns(r.state)
    ensures native.Fail? ==> r.state == h && r.result == Throws("Query preparation failed: " + native.message)
  {
    match native
    case Ok(_) =>
      var h' := h.(stmt := Some(Statement(sql, [])));
      Step(h', [Prepare(sql)], Returns(h'))
    case Fail(m) => Step(h, [Prepare(sql)], Throws("Query preparation failed: " + m))
  }

  /** The PDO type inferred for a value bound without an explicit type. */
  function InferredKind(value: Value): (kind: int)
    ensures kind == PARAM_INT <==> value.VInt?
    ensures kind == PARAM_BOOL <==> value.VBool?
    ensures kind == PARAM_NULL <==> value.VNull?
    ensures kind == PARAM_STR <==> !(value.VInt? || value.VBool? || value.VNull?)
  {
    match value
    case VInt(_) => PARAM_INT
    case VBool(_) => PARAM_BOOL
    case VNull => PARAM_NULL
    case _ => PARAM_STR
  }

  /** The type actually bound: an explicit (non-null) type passes through
      unchanged, a null one is inferred from the value. */
  function BoundKind(value: Value, kind: Value): (k: Value)
    ensures kind != VNull ==> k == kind
    ensures kind == VNull ==> k == VInt(InferredKind(value))
  {
    if kind == VNull then VInt(InferredKind(value)) else kind
  }

  /** `bind($param, $value, $type = null)`: binds one value into the current
      statement and returns the handler itself; `Binding parameter failed: `
      wraps a PDO failure. With no statement the engine's own error escapes. */
  function Bind(h: Handler, param: string, value: Value, kind: Value, native: Outcome<()>): (r: Step<Handler>)
    ensures SameConnection(r.state, h)
    ensures h.stmt.None? ==> r == Step(h, [], Throws(NullCall("bindValue")))
    ensures h.stmt.Some? ==> r.issued == [BindValue(param, value, BoundKind(value, kind))]
    ensures h.stmt.Some? && native.Ok? ==>
      && r.state.stmt == Some(Statement(h.stmt.value.sql,
                                        h.stmt.value.bindings + [Binding(param, value, BoundKind(value, kind))]))
      && r.result == Returns(r.state)
    ensures h.stmt.Some? && native.Fail? ==>
      r.state == h && r.result == Throws("Binding parameter failed: " + native.message)
  {
    match h.stmt
    case None => Step(h, [], Throws(NullCall("bindValue")))
    case Some(st) =>
      var k := BoundKind(value, kind);
      match native
      case Ok(_) =>
        var h' := h.(stmt := Some(Statement(st.sql, st.bindings + [Binding(param, value, k)])));
        Step(h', [BindValue(param, value, k)], Returns(h'))
      case Fail(m) => Step(h, [BindValue(param, value, k)], Throws("Binding parameter failed: " + m))
  }

  // ------------------------------------------------------ execute and fetch

  /** `execute()`: PDO's boolean, or `Execution failed: ` on failure. */
  function Execute(h: Handler, native: Outcome<bool>): (r: Step<bool>)
    ensures r.state == h
    ensures h.stmt.None? ==> r.issued == [] && r.result == Throws(NullCall("execute"))
    ensures h.stmt.Some? ==> r.issued == [StmtExecute]
    ensures h.stmt.Some? && native.Ok? ==> r.result == Returns(native.value)
    ensures h.stmt.Some? && native.Fail? ==> r.result == Throws("Execution failed: " + native.message)
  {
    if h.stmt.None? then Step(h, [], Throws(NullCall("execute")))
    else match native
      case Ok(b) => Step(h, [StmtExecute], Returns(b))
      case Fail(m) => Step(h, [StmtExecute], Throws("Execution failed: " + m))
  }

  /** The shape shared by the four fetching methods: execute the current
      statement (whatever it returns), then fetch. An execution failure
      escapes with its own `Execution failed: ` message, since the fetching
      method only catches PDO's exceptions; a fetch failure is wrapped with
      `prefix`; a fetch that yields `false` escapes as `noRow`. */
  function ExecuteThenFetch<T>(h: Handler, fetchCall: PdoCall, exec: Outcome<bool>,
                               fetch: Outcome<Option<T>>, prefix: string, noRow: string): (r: Step<T>)
    ensures r.state == h
    ensures h.stmt.None? ==> r.issued == [] && r.result == Throws(NullCall("execute"))
    ensures h.stmt.Some? ==> |r.issued| >= 1 && r.issued[0] == StmtExecute
    ensures r.issued == [StmtExecute, fetchCall] <==> h.stmt.Some? && exec.Ok?
    ensures h.stmt.Some? && exec.Fail? ==> r.result == Throws("Execution failed: " + exec.message)
    ensures h.stmt.Some? && exec.Ok? && fetch.Fail? ==> r.result == Throws(prefix + fetch.message)
    ensures h.stmt.Some? && exec.Ok? && fetch == Ok(None) ==> r.result == Throws(noRow)
    ensures r.result.Returns? <==> h.stmt.Some? && exec.Ok? && fetch.Ok? && fetch.value.Some?
    ensures r.result.Returns? ==> r.result.value == fetch.value.value
  {
    if h.stmt.None? then Step(h, [], Throws(NullCall("execute")))
    else match exec
      case Fail(m) => Step(h, [StmtExecute], Throws("Execution failed: " + m))
      case Ok(_) =>
        match fetch
        case Fail(m) => Step(h, [StmtExecute, fetchCall], Throws(prefix + m))
        case Ok(None) => Step(h, [StmtExecute, fetchCall], Throws(noRow))
        case Ok(Some(v)) => Step(h, [StmtExecute, fetchCall], Returns(v))
  }

  /** `resultSet()`: execute, then fetch every row. */
  function ResultSet(h: Handler, exec: Outcome<bool>, fetch: Outcome<seq<Assoc>>): (r: Step<seq<Assoc>>)
    ensures r.state == h
    ensures h.stmt.None? ==> r.issued == [] && r.result == Throws(NullCall("execute"))
    ensures h.stmt.Some? ==> |r.issued| >= 1 && r.issued[0] == StmtExecute
    ensures r.issued == [StmtExecute, StmtFetchAll] <==> h.stmt.Some? && exec.Ok?
    ensures h.stmt.Some? && exec.Ok? && fetch.Ok? ==> r.result == Returns(fetch.value)
    ensures h.stmt.Some? && exec.Ok? && fetch.Fail? ==>
      r.result == Throws("Fetching result set failed: " + fetch.message)
    ensures h.stmt.Some? && exec.Fail? ==> r.result == Throws("Execution failed: " + exec.message)
  {
    var rows := match fetch
      case Ok(rs) => Ok(Some(rs))
      case Fail(m) => Fail(m);
    ExecuteThenFetch(h, StmtFetchAll, exec, rows, "Fetching result set failed: ", "")
  }

  /** `single()`: execute, then fetch one row; no row at all is a type
      error, since the method promises an object. */
  function Single(h: Handler, exec: Outcome<bool>, fetch: Outcome<Option<Assoc>>): (r: Step<Assoc>)
    ensures r.state == h
    ensures h.stmt.None? ==> r.issued == [] && r.result == Throws(NullCall("execute"))
    ensures h.stmt.Some? ==> |r.issued| >= 1 && r.issued[0] == StmtExecute
    ensures r.issued == [StmtExecute, StmtFetch] <==> h.stmt.Some? && exec.Ok?
    ensures h.stmt.Some? && exec.Ok? && fetch.Ok? && fetch.value.Some? ==> r.result == Returns(fetch.value.value)
    ensures h.stmt.Some? && exec.Ok? && fetch == Ok(None) ==> r.result == Throws(BadReturn("single", "object", "bool"))
    ensures h.stmt.Some? && exec.Ok? && fetch.Fail? ==>
      r.result == Throws("Fetching single result failed: " + fetch.message)
    ensures h.stmt.Some? && exec.Fail? ==> r.result == Throws("Execution failed: " + exec.message)
  {
    ExecuteThenFetch(h, StmtFetch, exec, fetch, "Fetching single result failed: ", BadReturn("single", "object", "bool"))
  }

  /** `fetchColumn($columnNumber = 0)`: execute, then fetch one column of
      the next row; `None` for `column` is the omitted argument. `fetch` is
      what PDO hands back: the cell, or `false` when no row is left. The
      method's `string` return type coerces it: no row gives `""`, and a
      NULL cell is a type error. */
  function FetchColumn(h: Handler, column: Option<Value>, exec: Outcome<bool>, fetch: Outcome<Value>)
    : (r: Step<string>)
    ensures r.state == h
    ensures h.stmt.None? ==> r.issued == [] && r.result == Throws(NullCall("execute"))
    ensures h.stmt.Some? ==> |r.issued| >= 1 && r.issued[0] == StmtExecute
    ensures var col := if column.Some? then column.value else VInt(0);
      r.issued == [StmtExecute, StmtFetchColumn(col)] <==> h.stmt.Some? && exec.Ok?
    ensures h.stmt.Some? && exec.Ok? && fetch == Ok(VBool(false)) ==> r.result == Returns("")
    ensures h.stmt.Some? && exec.Ok? && fetch == Ok(VNull) ==>
      r.result == Throws(BadReturn("fetchColumn", "string", "null"))
    ensures h.stmt.Some? && exec.Ok? && fetch.Ok? && fetch.value.VStr? ==> r.result == Returns(fetch.value.s)
    ensures r.result.Returns? <==>
      h.stmt.Some? && exec.Ok? && fetch.Ok? && !fetch.value.VNull? && !fetch.value.VArray?
    ensures r.result.Returns? ==> r.result.value == Interp(fetch.value)
    ensures h.stmt.Some? && exec.Ok? && fetch.Fail? ==>
      r.result == Throws("Fetching column failed: " + fetch.message)
    ensures h.stmt.Some? && exec.Fail? ==> r.result == Throws("Execution failed: " + exec.message)
  {
    var col := if column.Some? then column.value else VInt(0);
    if h.stmt.None? then Step(h, [], Throws(NullCall("execute")))
    else match exec
      case Fail(m) => Step(h, [StmtExecute], Throws("Execution failed: " + m))
      case Ok(_) =>
        match fetch
        case Fail(m) => Step(h, [StmtExecute, StmtFetchColumn(col)], Throws("Fetching column failed: " + m))
        case Ok(v) => Step(h, [StmtExecute, StmtFetchColumn(col)], StringReturn("fetchColumn", v))
  }

  /** A caller of `fetchColumn` cannot tell an exhausted result from a
      row whose cell is the empty string. */
  lemma NoRowLooksLikeEmptyCell(h: Handler, column: Option<Value>, exec: Outcome<bool>)
    ensures FetchColumn(h, column, exec, Ok(VBool(false))) == FetchColumn(h, column, exec, Ok(VStr("")))
  {
  }

  /** `fetchRow()`: execute, then fetch the next row as an array. */
  function FetchRow(h: Handler, exec: Outcome<bool>, fetch: Outcome<Option<Assoc>>): (r: Step<Assoc>)
    ensures r.state == h
    ensures h.stmt.None? ==> r.issued == [] && r.result == Throws(NullCall("execute"))
    ensures h.stmt.Some? ==> |r.issued| >= 1 && r.issued[0] == StmtExecute
    ensures r.issued == [StmtExecute, StmtFetch] <==> h.stmt.Some? && exec.Ok?
    ensures h.stmt.Some? && exec.Ok? && fetch.Ok? && fetch.value.Some? ==> r.result == Returns(fetch.value.value)
    ensures h.stmt.Some? && exec.Ok? && fetch == Ok(None) ==> r.result == Throws(BadReturn("fetchRow", "array", "bool"))
    ensures h.stmt.Some? && exec.Ok? && fetch.Fail? ==>
      r.result == Throws("Fetching row failed: " + fetch.message)
    ensures h.stmt.Some? && exec.Fail? ==> r.result == Throws("Execution failed: " + exec.message)
  {
    ExecuteThenFetch(h, StmtFetch, exec, fetch, "Fetching row failed: ", BadReturn("fetchRow", "array", "bool"))
  }

  /** `rowCount()`: PDO's count, unwrapped. */
  function RowCount(h: Handler, native: Outcome<int>): (r: Step<int>)
    ensures r.state == h
    ensures h.stmt.None? ==> r.issued == [] && r.result == Throws(NullCall("rowCount"))
    ensures h.stmt.Some? ==> r.issued == [StmtRowCount]
    ensures h.stmt.Some? && native.Ok? ==> r.result == Returns(native.value)
    ensures h.stmt.Some? && native.Fail? ==> r.result == Throws(native.message)
  {
    if h.stmt.None? then Step(h, [], Throws(NullCall("rowCount")))
    else match native
      case Ok(n) => Step(h, [StmtRowCount], Returns(n))
      case Fail(m) => Step(h, [StmtRowCount], Throws(m))
  }

  // --------------------------------------------------- transactions, savepoints

  /** One PDO call inside a `try`, whatever it returns: its failure is
      rethrown behind `prefix`. */
  function Guarded<T>(h: Handler, call: PdoCall, native: Outcome<T>, prefix: string): (r: Step<()>)
    ensures r.state == h && r.issued == [call]
    ensures r.result.Returns? <==> native.Ok?
    ensures native.Fail? ==> r.result == Throws(prefix + native.message)
  {
    match native
    case Ok(_) => Step(h, [call], Returns(()))
    case Fail(m) => Step(h, [call], Throws(prefix + m))
  }

  function IsolationStatement(level: string): string
  {
    "SET TRANSACTION ISOLATION LEVEL " + level
  }

  /** `beginTransaction($isolationLevel = "SERIALIZABLE")` as written: it
      sends `SET TRANSACTION ISOLATION LEVEL L` and only then starts the
      transaction; `None` is the omitted argument. */
  function BeginTransaction(h: Handler, level: Option<string>, isolation: Outcome<int>, begin: Outcome<bool>): (r: Step<()>)
    ensures r.state == h
    ensures var l := if level.Some? then level.value else DefaultIsolationLevel;
      && |r.issued| >= 1 && r.issued[0] == DbExec(IsolationStatement(l))
      && (isolation.Ok? ==> r.issued == [DbExec(IsolationStatement(l)), DbBeginTransaction])
      && (isolation.Fail? ==> r.issued == [DbExec(IsolationStatement(l))])
    ensures r.result.Returns? <==> isolation.Ok? && begin.Ok?
    ensures isolation.Fail? ==> r.result == Throws("Starting transaction failed: " + isolation.message)
    ensures isolation.Ok? && begin.Fail? ==> r.result == Throws("Starting transaction failed: " + begin.message)
  {
    var l := if level.Some? then level.value else DefaultIsolationLevel;
    var first := Guarded(h, DbExec(IsolationStatement(l)), isolation, "Starting transaction failed: ");
    if first.result.Throws? then first
    else
      var second := Guarded(h, DbBeginTransaction, begin, "Starting transaction failed: ");
      Step(h, first.issued + second.issued, second.result)
  }

  /** `commitTransaction()`. */
  function CommitTransaction(h: Handler, native: Outcome<bool>): (r: Step<()>)
    ensures r.state == h && r.issued == [DbCommit]
    ensures r.result.Returns? <==> native.Ok?
    ensures native.Fail? ==> r.result == Throws("Committing transaction failed: " + native.message)
  {
    Guarded(h, DbCommit, native, "Committing transaction failed: ")
  }

  /** `rollbackTransaction()`. */
  function RollbackTransaction(h: Handler, native: Outcome<bool>): (r: Step<()>)
    ensures r.state == h && r.issued == [DbRollBack]
    ensures r.result.Returns? <==> native.Ok?
    ensures native.Fail? ==> r.result == Throws("Rolling back transaction failed: " + native.message)
  {
    Guarded(h, DbRollBack, native, "Rolling back transaction failed: ")
  }

  /** `beginSavepoint($name)`: exactly `SAVEPOINT name`. */
  function BeginSavepoint(h: Handler, name: string, native: Outcome<int>): (r: Step<()>)
    ensures r.state == h && r.issued == [DbExec("SAVEPOINT " + name)]
    ensures r.result.Returns? <==> native.Ok?
    ensures native.Fail? ==> r.result == Throws("Creating savepoint failed: " + native.message)
  {
    Guarded(h, DbExec("SAVEPOINT " + name), native, "Creating savepoint failed: ")
  }

  /** `rollbackSavepoint($name)`: exactly `ROLLBACK TO SAVEPOINT name`. */
  function RollbackSavepoint(h: Handler, name: string, native: Outcome<int>): (r: Step<()>)
    ensures r.state == h && r.issued == [DbExec("ROLLBACK TO SAVEPOINT " + name)]
    ensures r.result.Returns? <==> native.Ok?
    ensures native.Fail? ==> r.result == Throws("Rolling back to savepoint failed: " + native.message)
  {
    Guarded(h, DbExec("ROLLBACK TO SAVEPOINT " + name), native, "Rolling back to savepoint failed: ")
  }

  /** `releaseSavepoint($name)`: exactly `RELEASE SAVEPOINT name`. */
  function ReleaseSavepoint(h: Handler, name: string, native: Outcome<int>): (r: Step<()>)
    ensures r.state == h && r.issued == [DbExec("RELEASE SAVEPOINT " + name)]
    ensures r.result.Returns? <==> native.Ok?
    ensures native.Fail? ==> r.result == Throws("Releasing savepoint failed: " + native.message)
  {
    Guarded(h, DbExec("RELEASE SAVEPOINT " + name), native, "Releasing savepoint failed: ")
  }

  // ----------------------------------------------------------- introspection

  /** `lastInsertId()`: PDO's answer, unwrapped. */
  function LastInsertId(h: Handler, native: Outcome<string>): (r: Step<string>)
    ensures r.state == h && r.issued == [DbLastInsertId]
    ensures native.Ok? ==> r.result == Returns(native.value)
    ensures native.Fail? ==> r.result == Throws(native.message)
  {
    match native
    case Ok(id) => Step(h, [DbLastInsertId], Returns(id))
    case Fail(m) => Step(h, [DbLastInsertId], Throws(m))
  }

  /** `errorInfo()`: the statement's error array, or the one-element
      `['No statement initialized']` before any query was prepared. */
  function ErrorInfo(h: Handler, native: seq<Value>): (r: Step<seq<Value>>)
    ensures r.state == h
    ensures h.stmt.None? ==> r.issued == [] && r.result == Returns([VStr(NoStatement)])
    ensures h.stmt.Some? ==> r.issued == [StmtErrorInfo] && r.result == Returns(native)
  {
    if h.stmt.None? then Step(h, [], Returns([VStr(NoStatement)]))
    else Step(h, [StmtErrorInfo], Returns(native))
  }

  /** `getVersion()`: the server version attribute. */
  function GetVersion(h: Handler, native: Outcome<string>): (r: Step<string>)
    ensures r.state == h && r.issued == [DbServerVersion]
    ensures native.Ok? ==> r.result == Returns(native.value)
    ensures native.Fail? ==> r.result == Throws("Fetching PostgreSQL version failed: " + native.message)
  {
    match native
    case Ok(v) => Step(h, [DbServerVersion], Returns(v))
    case Fail(m) => Step(h, [DbServerVersion], Throws("Fetching PostgreSQL version failed: " + m))
  }

  /** `lastErrorCode()`: the connection's SQLSTATE, a null one read as the
      empty string. */
  function LastErrorCode(h: Handler, native: Option<string>): (r: Step<string>)
    ensures r.state == h && r.issued == [DbErrorCode]
    ensures native.Some? ==> r.result == Returns(native.value)
    ensures native.None? ==> r.result == Returns("")
  {
    Step(h, [DbErrorCode], Returns(if native.Some? then native.value else ""))
  }

  /** `lastErrorMessage()`: element 2 of the connection's error array, or
      `No error message` when it is missing or null; the `: string` return
      then coerces it, so an array there is a type error. */
  function LastErrorMessage(h: Handler, info: seq<Value>): (r: Step<string>)
    ensures r.state == h && r.issued == [DbErrorInfo]
    ensures |info| <= 2 || info[2] == VNull ==> r.result == Returns(NoErrorMessage)
    ensures |info| > 2 && info[2].VStr? ==> r.result == Returns(info[2].s)
    ensures |info| > 2 && info[2].VArray? ==>
      r.result == Throws(BadReturn("lastErrorMessage", "string", "array"))
    ensures |info| > 2 && !info[2].VNull? && !info[2].VArray? ==>
      r.result == Returns(Interp(info[2]))
  {
    var result := if |info| > 2 && info[2] != VNull
      then StringReturn("lastErrorMessage", info[2])
      else Returns(NoErrorMessage);
    Step(h, [DbErrorInfo], result)
  }

  // ------------------------------------------------------------------ lemmas

  /** The four kinds a bound value can be inferred to have are told apart
      exactly by the value's runtime kind. */
  lemma BindInfersKind(h: Handler, param: string, value: Value, native: Outcome<()>)
    requires h.stmt.Some? && native.Ok?
    ensures var b := Bind(h, param, value, VNull, native).state.stmt.value.bindings;
      var kind := b[|b| - 1].kind;
      && (kind == VInt(PARAM_INT) <==> value.VInt?)
      && (kind == VInt(PARAM_BOOL) <==> value.VBool?)
      && (kind == VInt(PARAM_NULL) <==> value.VNull?)
      && (kind == VInt(PARAM_STR) <==> !(value.VInt? || value.VBool? || value.VNull?))
  {
  }

  /** A successful `query` forgets the previous statement entirely: two
      handlers on the same connection end in the same state. */
  lemma QueryReplacesStatement(h1: Handler, h2: Handler, sql: string, native: Outcome<()>)
    requires SameConnection(h1, h2) && native.Ok?
    ensures Query(h1, sql, native).state == Query(h2, sql, native).state
  {
  }

  /** `query(sql)` then `bind` on PDO successes leaves exactly one binding on
      a statement of that SQL, and each step returned the handler itself. */
  lemma QueryThenBind(h: Handler, sql: string, param: string, value: Value, kind: Value)
    ensures var q := Query(h, sql, Ok(()));
      var b := Bind(q.state, param, value, kind, Ok(()));
      && q.result == Returns(q.state)
      && b.result == Returns(b.state)
      && b.state.stmt == Some(Statement(sql, [Binding(param, value, BoundKind(value, kind))]))
  {
    assert [] + [Binding(param, value, BoundKind(value, kind))] == [Binding(param, value, BoundKind(value, kind))];
  }

  // ----------------------------------------------------- sequences of calls

  /** One handler method call together with the outcomes of its PDO calls. */
  datatype Op =
    | QueryOp(sql: string, prepare: Outcome<()>)
    | BindOp(param: string, value: Value, kind: Value, bindValue: Outcome<()>)
    | ExecuteOp(exec: Outcome<bool>)
    | ResultSetOp(exec: Outcome<bool>, rows: Outcome<seq<Assoc>>)
    | SingleOp(exec: Outcome<bool>, row: Outcome<Option<Assoc>>)
    | FetchColumnOp(column: Option<Value>, exec: Outcome<bool>, cell: Outcome<Value>)
    | FetchRowOp(exec: Outcome<bool>, row: Outcome<Option<Assoc>>)
    | RowCountOp(count: Outcome<int>)
    | BeginOp(level: Option<string>, isolation: Outcome<int>, begin: Outcome<bool>)
    | CommitOp(committed: Outcome<bool>)
    | RollbackOp(rolledBack: Outcome<bool>)
    | SavepointOp(name: string, native: Outcome<int>)
    | RollbackToSavepointOp(name: string, native: Outcome<int>)
    | ReleaseSavepointOp(name: string, native: Outcome<int>)
    | LastInsertIdOp(id: Outcome<string>)
    | ErrorInfoOp(info: seq<Value>)
    | GetVersionOp(version: Outcome<string>)
    | LastErrorCodeOp(code: Option<string>)
    | LastErrorMessageOp(info: seq<Value>)

  /** The handler after one call, whether the call returned or threw. */
  function Apply(h: Handler, op: Op): (h': Handler)
    ensures SameConnection(h', h)
    ensures op.QueryOp? && op.prepare.Ok? ==> h'.stmt == Some(Statement(op.sql, []))
    ensures op.BindOp? && op.bindValue.Ok? && h.stmt.Some? ==>
      h'.stmt == Some(Statement(h.stmt.value.sql,
                                h.stmt.value.bindings + [Binding(op.param, op.value, BoundKind(op.value, op.kind))]))
    ensures !(op.QueryOp? && op.prepare.Ok?) && !(op.BindOp? && op.bindValue.Ok? && h.stmt.Some?) ==> h' == h
  {
    match op
    case QueryOp(sql, n) => Query(h, sql, n).state
    case BindOp(p, v, k, n) => Bind(h, p, v, k, n).state
    case ExecuteOp(e) => Execute(h, e).state
    case ResultSetOp(e, f) => ResultSet(h, e, f).state
    case SingleOp(e, f) => Single(h, e, f).state
    case FetchColumnOp(c, e, f) => FetchColumn(h, c, e, f).state
    case FetchRowOp(e, f) => FetchRow(h, e, f).state
    case RowCountOp(n) => RowCount(h, n).state
    case BeginOp(l, i, b) => BeginTransaction(h, l, i, b).state
    case CommitOp(n) => CommitTransaction(h, n).state
    case RollbackOp(n) => RollbackTransaction(h, n).state
    case SavepointOp(name, n) => BeginSavepoint(h, name, n).state
    case RollbackToSavepointOp(name, n) => RollbackSavepoint(h, name, n).state
    case ReleaseSavepointOp(name, n) => ReleaseSavepoint(h, name, n).state
    case LastInsertIdOp(n) => LastInsertId(h, n).state
    case ErrorInfoOp(n) => ErrorInfo(h, n).state
    case GetVersionOp(n) => GetVersion(h, n).state
    case LastErrorCodeOp(n) => LastErrorCode(h, n).state
    case LastErrorMessageOp(n) => LastErrorMessage(h, n).state
  }

  /** The handler after a sequence of calls, in order. */
  function Run(h: Handler, ops: seq<Op>): Handler
  {
    if |ops| == 0 then h else Apply(Run(h, ops[..|ops| - 1]), ops[|ops| - 1])
  }

  predicate Prepares(op: Op)
  {
    op.QueryOp? && op.prepare.Ok?
  }

  /** The values that the successful `bind` calls of `ops` bind, in order. */
  function Bound(ops: seq<Op>): seq<Binding>
  {
    if |ops| == 0 then []
    else
      var op := ops[|ops| - 1];
      Bound(ops[..|ops| - 1])
        + (if op.BindOp? && op.bindValue.Ok? then [Binding(op.param, op.value, BoundKind(op.value, op.kind))] else [])
  }

  lemma {:induction false} RunAppend(h: Handler, a: seq<Op>, b: seq<Op>)
    ensures Run(h, a + b) == Run(Run(h, a), b)
  {
    if |b| == 0 {
      assert a + b == a;
    } else {
      assert (a + b)[..|a + b| - 1] == a + b[..|b| - 1];
      RunAppend(h, a, b[..|b| - 1]);
    }
  }

  /** No sequence of calls changes the connection parameters. */
  lemma {:induction false} RunKeepsConnection(h: Handler, ops: seq<Op>)
    ensures SameConnection(Run(h, ops), h)
  {
    if |ops| > 0 {
      RunKeepsConnection(h, ops[..|ops| - 1]);
    }
  }

  /** Once a statement exists and no further query succeeds, the statement
      keeps its SQL and gains exactly the successful bindings, in order. */
  lemma {:induction false} RunAfterStatement(h: Handler, ops: seq<Op>)
    requires h.stmt.Some?
    requires forall i :: 0 <= i < |ops| ==> !Prepares(ops[i])
    ensures Run(h, ops).stmt == Some(Statement(h.stmt.value.sql, h.stmt.value.bindings + Bound(ops)))
  {
    if |ops| == 0 {
      assert h.stmt.value.bindings + [] == h.stmt.value.bindings;
    } else {
      var init := ops[..|ops| - 1];
      RunAfterStatement(h, init);
      var op := ops[|ops| - 1];
      assert !Prepares(op);
      var bs := h.stmt.value.bindings;
      assert Run(h, ops) == Apply(Run(h, init), op);
      if op.BindOp? && op.bindValue.Ok? {
        assert bs + Bound(init) + [Binding(op.param, op.value, BoundKind(op.value, op.kind))]
            == bs + Bound(ops);
      } else {
        assert Bound(ops) == Bound(init) + [];
        assert Bound(init) + [] == Bound(init);
        assert Run(h, ops) == Run(h, init);
      }
    }
  }

  /** The current statement is always the one the last successful `query`
      prepared, holding exactly the values bound since, in order; whatever
      came before that query is forgotten. */
  lemma StatementFollowsLastQuery(h: Handler, before: seq<Op>, sql: string, after: seq<Op>)
    requires forall i :: 0 <= i < |after| ==> !Prepares(after[i])
    ensures Run(h, before + [QueryOp(sql, Ok(()))] + after).stmt == Some(Statement(sql, Bound(after)))
  {
    RunAppend(h, before + [QueryOp(sql, Ok(()))], after);
    var q := Run(h, before + [QueryOp(sql, Ok(()))]);
    assert (before + [QueryOp(sql, Ok(()))])[..|before|] == before;
    assert q.stmt == Some(Statement(sql, []));
    RunAfterStatement(q, after);
    assert [] + Bound(after) == Bound(after);
  }

  /** Until a query succeeds there is no statement: a `bind` before any
      query binds nothing. */
  lemma {:induction false} NoStatementWithoutQuery(h: Handler, ops: seq<Op>)
    requires h.stmt.None?
    requires forall i :: 0 <= i < |ops| ==> !Prepares(ops[i])
    ensures Run(h, ops).stmt.None?
  {
    if |ops| > 0 {
      NoStatementWithoutQuery(h, ops[..|ops| - 1]);
      assert !Prepares(ops[|ops| - 1]);
    }
  }

  // ------------------------------------------------- isolation level placement

  /** Some earlier call of the same trace opened a transaction block. */
  predicate OpenedBefore(trace: seq<PdoCall>, i: nat)
    requires i <= |trace|
  {
    exists j :: 0 <= j < i && trace[j] == DbBeginTransaction
  }

  /** As written, `beginTransaction` sends its `SET TRANSACTION` before the
      transaction block is opened. PostgreSQL applies `SET TRANSACTION`
      only inside a transaction block (outside one it warns and has no
      effect), so the requested level never governs the transaction that
      follows. */
  lemma IsolationSetOutsideBlock(h: Handler, level: Option<string>, isolation: Outcome<int>, begin: Outcome<bool>)
    ensures var r := BeginTransaction(h, level, isolation, begin);
      forall i :: 0 <= i < |r.issued| && r.issued[i].DbExec? ==> !OpenedBefore(r.issued, i)
  {
    var r := BeginTransaction(h, level, isolation, begin);
    forall i | 0 <= i < |r.issued| && r.issued[i].DbExec?
      ensures !OpenedBefore(r.issued, i)
    {
      assert i == 0;
    }
  }

  /** `beginTransaction` with the isolation level set as the first statement
      of the opened block, where PostgreSQL honours it. */
  function BeginTransactionInBlock(h: Handler, level: Option<string>, begin: Outcome<bool>, isolation: Outcome<int>)
    : (r: Step<()>)
    ensures r.state == h
    ensures var l := if level.Some? then level.value else DefaultIsolationLevel;
      && |r.issued| >= 1 && r.issued[0] == DbBeginTransaction
      && (begin.Ok? ==> r.issued == [DbBeginTransaction, DbExec(IsolationStatement(l))])
    ensures r.result.Returns? <==> begin.Ok? && isolation.Ok?
    ensures begin.Fail? ==> r.result == Throws("Starting transaction failed: " + begin.message)
    ensures begin.Ok? && isolation.Fail? ==> r.result == Throws("Starting transaction failed: " + isolation.message)
  {
    var l := if level.Some? then level.value else DefaultIsolationLevel;
    var first := Guarded(h, DbBeginTransaction, begin, "Starting transaction failed: ");
    if first.result.Throws? then first
    else
      var second := Guarded(h, DbExec(IsolationStatement(l)), isolation, "Starting transaction failed: ");
      Step(h, first.issued + second.issued, second.result)
  }

  /** In the corrected order every statement the method sends runs inside
      the block it opened. */
  lemma IsolationSetInsideBlock(h: Handler, level: Option<string>, begin: Outcome<bool>, isolation: Outcome<int>)
    ensures var r := BeginTransactionInBlock(h, level, begin, isolation);
      forall i :: 0 <= i < |r.issued| && r.issued[i].DbExec? ==> OpenedBefore(r.issued, i)
  {
    var r := BeginTransactionInBlock(h, level, begin, isolation);
    forall i | 0 <= i < |r.issued| && r.issued[i].DbExec?
      ensures OpenedBefore(r.issued, i)
    {
      assert i == 1 && r.issued[0] == DbBeginTransaction;
    }
  }
}

=== FILE: redis.dfy ===
/** The Redis handler: every method forwards to one Predis command (two for
    `insert` and `update`) and returns the reply unchanged; nothing catches,
    so a failing command's exception reaches the caller as it is. The
    Predis client is an oracle: each command's reply is an input, and each
    method reports the commands it sent. */
module Redis {
  import opened Common

  const DefaultScheme: string := "tcp"
  const DefaultHost: string := "127.0.0.1"
  const DefaultPort: int := 6379
  /** The float `0.0`, carried opaquely with the text PHP prints for it. */
  const DefaultTimeout: Value := VOther("0")
  const AllKeys: string := "*"

  /** The connection options handed to the Predis client. */
  datatype Options = Options(scheme: Value, host: Value, port: Value, timeout: Value)

  /** A Redis command as Predis sends it. */
  datatype Command =
    | SET(key: string, value: Value)
    | EXPIRE(key: string, seconds: int)
    | GET(key: string)
    | DEL(keys: seq<string>)
    | INCRBY(key: string, amount: int)
    | DECRBY(key: string, amount: int)
    | KEYS(pattern: string)
    | FLUSHALL
    | HSET(key: string, field: string, value: Value)
    | HGET(key: string, field: string)
    | HDEL(key: string, fields: seq<string>)
    | HGETALL(key: string)
    | LPUSH(key: string, values: seq<Value>)
    | RPOP(key: string)
    | LRANGE(key: string, start: int, stop: int)
    | SADD(key: string, members: seq<Value>)
    | SREM(key: string, members: seq<Value>)
    | SMEMBERS(key: string)
    | SINTER(keys: seq<string>)
    | ZADD(key: string, score: Value, member: Value)
    | ZREM(key: string, members: seq<Value>)
    | ZRANGE(key: string, start: int, stop: int, withScores: bool)
    | ZREVRANGE(key: string, start: int, stop: int, withScores: bool)
    | ZSCORE(key: string, member: Value)
    | ZRANK(key: string, member: Value)
    | PUBLISH(channel: string, message: Value)
    | TTL(key: string)

  /** One handler call: the commands sent, in order, and what the caller
      gets back. */
  datatype Step = Step(issued: seq<Command>, result: Result<Value>)

  /** The constructor: missing or null options fall back to the local
      server's defaults; a client failure becomes
      `Failed to connect to Redis server: ...`. */
  function Connect(config: Config, native: Outcome<()>): (r: Result<Options>)
    ensures r.Returns? <==> native.Ok?
    ensures native.Fail? ==> r.message == "Failed to connect to Redis server: " + native.message
    ensures r.Returns? ==>
      && (!IsSet(config, "scheme") ==> r.value.scheme == VStr(DefaultScheme))
      && (!IsSet(config, "host") ==> r.value.host == VStr(DefaultHost))
      && (!IsSet(config, "port") ==> r.value.port == VInt(DefaultPort))
      && (!IsSet(config, "timeout") ==> r.value.timeout == DefaultTimeout)
      && (IsSet(config, "scheme") ==> r.value.scheme == config["scheme"])
      && (IsSet(config, "host") ==> r.value.host == config["host"])
      && (IsSet(config, "port") ==> r.value.port == config["port"])
      && (IsSet(config, "timeout") ==> r.value.timeout == config["timeout"])
  {
    match native
    case Fail(m) => Throws("Failed to connect to Redis server: " + m)
    case Ok(_) =>
      Returns(Options(
        Coalesce(config, "scheme", VStr(DefaultScheme)),
        Coalesce(config, "host", VStr(DefaultHost)),
        Coalesce(config, "port", VInt(DefaultPort)),
        Coalesce(config, "timeout", DefaultTimeout)))
  }

  /** The caller gets the reply as it is: the value returned, or the
      failure's exception with its own message. */
  predicate Passes(result: Result<Value>, reply: Outcome<Value>)
  {
    && (result.Returns? <==> reply.Ok?)
    && (reply.Ok? ==> result.value == reply.value)
    && (reply.Fail? ==> result.message == reply.message)
  }

  /** A method that sends one command and returns its reply unchanged. */
  function Forward(cmd: Command, reply: Outcome<Value>): (r: Step)
    ensures r.issued == [cmd]
    ensures Passes(r.result, reply)
  {
    match reply
    case Ok(v) => Step([cmd], Returns(v))
    case Fail(m) => Step([cmd], Throws(m))
  }

  // -------------------------------------------------------------- basic CRUD

  /** `insert($key, $value, $expiration = 0)`: SET, then EXPIRE only for a
      positive expiration; `true` whatever the replies say, unless a command
      fails. */
  function Insert(key: string, value: Value, expiration: Option<int>, setReply: Outcome<Value>, expireReply: Outcome<Value>)
    : (r: Step)
    ensures var e := if expiration.Some? then expiration.value else 0;
      && (setReply.Fail? ==> r == Step([SET(key, value)], Throws(setReply.message)))
      && (setReply.Ok? && e <= 0 ==> r == Step([SET(key, value)], Returns(VBool(true))))
      && (setReply.Ok? && e > 0 ==> r.issued == [SET(key, value), EXPIRE(key, e)])
      && (setReply.Ok? && e > 0 && expireReply.Ok? ==> r.result == Returns(VBool(true)))
      && (setReply.Ok? && e > 0 && expireReply.Fail? ==> r.result == Throws(expireReply.message))
  {
    var e := if expiration.Some? then expiration.value else 0;
    match setReply
    case Fail(m) => Step([SET(key, value)], Throws(m))
    case Ok(_) =>
      if e > 0 then
        match expireReply
        case Fail(m) => Step([SET(key, value), EXPIRE(key, e)], Throws(m))
        case Ok(_) => Step([SET(key, value), EXPIRE(key, e)], Returns(VBool(true)))
      else
        Step([SET(key, value)], Returns(VBool(true)))
  }

  /** `update(...)`: delegates to `insert` with the same arguments. */
  function Update(key: string, value: Value, expiration: Option<int>, setReply: Outcome<Value>, expireReply: Outcome<Value>)
    : (r: Step)
    ensures |r.issued| >= 1 && r.issued[0] == SET(key, value)
    ensures r.result.Returns? ==> r.result.value == VBool(true)
    ensures r.result.Returns? <==> setReply.Ok? && (|r.issued| == 1 || expireReply.Ok?)
  {
    Insert(key, value, expiration, setReply, expireReply)
  }

  /** `select($key)`: GET. */
  function Select(key: string, reply: Outcome<Value>): (r: Step)
    ensures r.issued == [GET(key)]
    ensures Passes(r.result, reply)
  {
    Forward(GET(key), reply)
  }

  /** `delete($key)`: DEL with the key wrapped in a one-element list. */
  function Delete(key: string, reply: Outcome<Value>): (r: Step)
    ensures r.issued == [DEL([key])]
    ensures Passes(r.result, reply)
  {
    Forward(DEL([key]), reply)
  }

  /** The increment amount: the given one, 1 when omitted. */
  function Amount(amount: Option<int>): (n: int)
    ensures amount.None? ==> n == 1
    ensures amount.Some? ==> n == amount.value
  {
    if amount.Some? then amount.value else 1
  }

  /** `increment($key, $amount = 1)`: INCRBY. */
  function Increment(key: string, amount: Option<int>, reply: Outcome<Value>): (r: Step)
    ensures r.issued == [INCRBY(key, Amount(amount))]
    ensures Passes(r.result, reply)
  {
    Forward(INCRBY(key, Amount(amount)), reply)
  }

  /** `decrement($key, $amount = 1)`: DECRBY. */
  function Decrement(key: string, amount: Option<int>, reply: Outcome<Value>): (r: Step)
    ensures r.issued == [DECRBY(key, Amount(amount))]
    ensures Passes(r.result, reply)
  {
    Forward(DECRBY(key, Amount(amount)), reply)
  }

  /** `select_all()`: KEYS with the match-everything pattern. */
  function SelectAll(reply: Outcome<Value>): (r: Step)
    ensures r.issued == [KEYS(AllKeys)]
    ensures Passes(r.result, reply)
  {
    Forward(KEYS(AllKeys), reply)
  }

  /** `flush()`: FLUSHALL. */
  function Flush(reply: Outcome<Value>): (r: Step)
    ensures r.issued == [FLUSHALL]
    ensures Passes(r.result, reply)
  {
    Forward(FLUSHALL, reply)
  }

  // ------------------------------------------------------------------ hashes

  function HashInsert(hash: string, field: string, value: Value, reply: Outcome<Value>): (r: Step)
    ensures r.issued == [HSET(hash, field, value)]
    ensures Passes(r.result, reply)
  {
    Forward(HSET(hash, field, value), reply)
  }

  function HashSelect(hash: string, field: string, reply: Outcome<Value>): (r: Step)
    ensures r.issued == [HGET(hash, field)]
    ensures Passes(r.result, reply)
  {
    Forward(HGET(hash, field), reply)
  }

  /** `hash_delete($hash, $field)`: HDEL with the field wrapped in a list. */
  function HashDelete(hash: string, field: string, reply: Outcome<Value>): (r: Step)
    ensures r.issued == [HDEL(hash, [field])]
    ensures Passes(r.result, reply)
  {
    Forward(HDEL(hash, [field]), reply)
  }

  function HashSelectAll(hash: string, reply: Outcome<Value>): (r: Step)
    ensures r.issued == [HGETALL(hash)]
    ensures Passes(r.result, reply)
  {
    Forward(HGETALL(hash), reply)
  }

  // ------------------------------------------------------------------- lists

  /** `push($list, $value)`: LPUSH, at the head of the list. */
  function Push(list: string, value: Value, reply: Outcome<Value>): (r: Step)
    ensures r.issued == [LPUSH(list, [value])]
    ensures Passes(r.result, reply)
  {
    Forward(LPUSH(list, [value]), reply)
  }

  /** `pop($list)`: RPOP, at the tail of the list. */
  function Pop(list: string, reply: Outcome<Value>): (r: Step)
    ensures r.issued == [RPOP(list)]
    ensures Passes(r.result, reply)
  {
    Forward(RPOP(list), reply)
  }

  function ListRange(list: string, start: int, stop: int, reply: Outcome<Value>): (r: Step)
    ensures r.issued == [LRANGE(list, start, stop)]
    ensures Passes(r.result, reply)
  {
    Forward(LRANGE(list, start, stop), reply)
  }

  // -------------------------------------------------------------------- sets

  function SetAdd(name: string, value: Value, reply: Outcome<Value>): (r: Step)
    ensures r.issued == [SADD(name, [value])]
    ensures Passes(r.result, reply)
  {
    Forward(SADD(name, [value]), reply)
  }

  function SetRemove(name: string, value: Value, reply: Outcome<Value>): (r: Step)
    ensures r.issued == [SREM(name, [value])]
    ensures Passes(r.result, reply)
  {
    Forward(SREM(name, [value]), reply)
  }

  function SetMembers(name: string, reply: Outcome<Value>): (r: Step)
    ensures r.issued == [SMEMBERS(name)]
    ensures Passes(r.result, reply)
  {
    Forward(SMEMBERS(name), reply)
  }

  /** `set_intersect($set1, $set2)`: SINTER over exactly the two sets. */
  function SetIntersect(set1: string, set2: string, reply: Outcome<Value>): (r: Step)
    ensures r.issued == [SINTER([set1, set2])]
    ensures Passes(r.result, reply)
  {
    Forward(SINTER([set1, set2]), reply)
  }

  // ------------------------------------------------------------- sorted sets

  /** `zadd($zset, $score, $member)`: ZADD with a one-entry dictionary
      pairing the score with the member. */
  function SortedAdd(zset: string, score: Value, member: Value, reply: Outcome<Value>): (r: Step)
    ensures r.issued == [ZADD(zset, score, member)]
    ensures Passes(r.result, reply)
  {
    Forward(ZADD(zset, score, member), reply)
  }

  function SortedRemove(zset: string, member: Value, reply: Outcome<Value>): (r: Step)
    ensures r.issued == [ZREM(zset, [member])]
    ensures Passes(r.result, reply)
  {
    Forward(ZREM(zset, [member]), reply)
  }

  /** Whether scores are asked for: the given flag, false when omitted. */
  function WithScores(withScores: Option<bool>): (b: bool)
    ensures b <==> withScores == Some(true)
  {
    withScores.Some? && withScores.value
  }

  function SortedRange(zset: string, start: int, stop: int, withScores: Option<bool>, reply: Outcome<Value>)
    : (r: Step)
    ensures r.issued == [ZRANGE(zset, start, stop, WithScores(withScores))]
    ensures Passes(r.result, reply)
  {
    Forward(ZRANGE(zset, start, stop, WithScores(withScores)), reply)
  }

  function SortedRevRange(zset: string, start: int, stop: int, withScores: Option<bool>, reply: Outcome<Value>)
    : (r: Step)
    ensures r.issued == [ZREVRANGE(zset, start, stop, WithScores(withScores))]
    ensures Passes(r.result, reply)
  {
    Forward(ZREVRANGE(zset, start, stop, WithScores(withScores)), reply)
  }

  function SortedScore(zset: string, member: Value, reply: Outcome<Value>): (r: Step)
    ensures r.issued == [ZSCORE(zset, member)]
    ensures Passes(r.result, reply)
  {
    Forward(ZSCORE(zset, member), reply)
  }

  function SortedRank(zset: string, member: Value, reply: Outcome<Value>): (r: Step)
    ensures r.issued == [ZRANK(zset, member)]
    ensures Passes(r.result, reply)
  {
    Forward(ZRANK(zset, member), reply)
  }

  // ------------------------------------------------------ pub/sub and expiry

  function Publish(channel: string, message: Value, reply: Outcome<Value>): (r: Step)
    ensures r.issued == [PUBLISH(channel, message)]
    ensures Passes(r.result, reply)
  {
    Forward(PUBLISH(channel, message), reply)
  }

  function SetExpiration(key: string, seconds: int, reply: Outcome<Value>): (r: Step)
    ensures r.issued == [EXPIRE(key, seconds)]
    ensures Passes(r.result, reply)
  {
    Forward(EXPIRE(key, seconds), reply)
  }

  function GetTtl(key: string, reply: Outcome<Value>): (r: Step)
    ensures r.issued == [TTL(key)]
    ensures Passes(r.result, reply)
  {
    Forward(TTL(key), reply)
  }

  // ------------------------------------------------------------------ lemmas

  /** Whether a command touches the head of a list (LPUSH) or its tail (RPOP). */
  predicate AtHead(c: Command)
  {
    c.LPUSH?
  }

  predicate AtTail(c: Command)
  {
    c.RPOP?
  }

  /** `insert` sends EXPIRE exactly when the expiration is positive, and
      returns `true` whenever neither command failed. */
  lemma InsertExpiresIffPositive(key: string, value: Value, e: int, setReply: Outcome<Value>, expireReply: Outcome<Value>)
    requires setReply.Ok?
    ensures var r := Insert(key, value, Some(e), setReply, expireReply);
      && (EXPIRE(key, e) in r.issued <==> e > 0)
      && (|r.issued| == 2 <==> e > 0)
      && (expireReply.Ok? ==> r.result == Returns(VBool(true)))
  {
  }

  /** `insert`'s result does not depend on what the commands reply, only on
      whether they fail. */
  lemma InsertIgnoresReplies(key: string, value: Value, expiration: Option<int>, a: Value, b: Value, c: Value, d: Value)
    ensures Insert(key, value, expiration, Ok(a), Ok(b)) == Insert(key, value, expiration, Ok(c), Ok(d))
    ensures Insert(key, value, expiration, Ok(a), Ok(b)).result == Returns(VBool(true))
  {
  }

  /** `update` sends exactly the commands `insert` sends and returns what it
      returns. */
  lemma UpdateIsInsert(key: string, value: Value, expiration: Option<int>, s: Outcome<Value>, e: Outcome<Value>)
    ensures Update(key, value, expiration, s, e) == Insert(key, value, expiration, s, e)
  {
  }

  /** Omitting the amount is the same as passing 1, for both directions. */
  lemma AmountDefaultsToOne(key: string, reply: Outcome<Value>)
    ensures Increment(key, None, reply) == Increment(key, Some(1), reply)
    ensures Decrement(key, None, reply) == Decrement(key, Some(1), reply)
    ensures Increment(key, None, reply).issued == [INCRBY(key, 1)]
  {
  }

  /** `push` and `pop` work on opposite ends of the same list. */
  lemma PushPopOppositeEnds(list: string, value: Value, a: Outcome<Value>, b: Outcome<Value>)
    ensures var push := Push(list, value, a).issued[0];
      var pop := Pop(list, b).issued[0];
      && AtHead(push) && !AtTail(push)
      && AtTail(pop) && !AtHead(pop)
      && push.key == pop.key == list
  {
  }

  /** The one-argument list commands carry exactly their one argument. */
  lemma SingleArgumentWrapping(key: string, field: string, value: Value, reply: Outcome<Value>)
    ensures Delete(key, reply).issued[0].keys == [key]
    ensures HashDelete(key, field, reply).issued[0].fields == [field]
    ensures SetAdd(key, value, reply).issued[0].members == [value]
    ensures SetRemove(key, value, reply).issued[0].members == [value]
    ensures SortedRemove(key, value, reply).issued[0].members == [value]
    ensures Push(key, value, reply).issued[0].values == [value]
  {
  }

  /** `set_intersect` intersects exactly its two arguments, first set first. */
  lemma IntersectPassesBoth(set1: string, set2: string, reply: Outcome<Value>)
    ensures var keys := SetIntersect(set1, set2, reply).issued[0].keys;
      |keys| == 2 && keys[0] == set1 && keys[1] == set2
  {
  }
}

=== FILE: sql.dfy ===
/** Positional placeholders in generated SQL: which key each `?` belongs to.
    The MySQL builders emit `key = ?` items joined by a separator; these
    facts say that, when no identifier contains a `?`, the pieces of the SQL
    between consecutive `?` end, in order, with `key = ` for each key. */
module Placeholders {
  import opened Text

  /** The positional placeholder PDO binds parameters to. */
  const Mark: char := '?'

  predicate MarkFree(s: string)
  {
    Mark !in s
  }

  predicate AllMarkFree(ss: seq<string>)
  {
    forall i :: 0 <= i < |ss| ==> MarkFree(ss[i])
  }

  /** `"$key = ?"`. */
  function Assign(key: string): string
  {
    key + " = ?"
  }

  /** `array_map(fn($key) => "$key = ?", $keys)`. */
  function Assignments(keys: seq<string>): (items: seq<string>)
    ensures |items| == |keys|
  {
    if |keys| == 0 then [] else [Assign(keys[0])] + Assignments(keys[1..])
  }

  /** `array_fill(0, n, "?")`. */
  function Marks(n: nat): (items: seq<string>)
    ensures |items| == n
    ensures forall i :: 0 <= i < n ==> items[i] == [Mark]
  {
    seq(n, _ => [Mark])
  }

  function Repeat(s: string, n: nat): (items: seq<string>)
    ensures |items| == n
    ensures forall i :: 0 <= i < n ==> items[i] == s
  {
    seq(n, _ => s)
  }

  /** The pieces between placeholders pair, in order, with `keys`: there is
      one placeholder per key, and the text before the i-th placeholder ends
      with `key_i = `. */
  predicate PairsWith(pieces: seq<string>, keys: seq<string>)
  {
    && |pieces| == |keys| + 1
    && forall i :: 0 <= i < |keys| ==> EndsWith(pieces[i], keys[i] + " = ")
  }

  lemma JoinMarkFree(sep: string, xs: seq<string>)
    requires MarkFree(sep) && AllMarkFree(xs)
    ensures MarkFree(Join(sep, xs))
  {
    if |xs| > 1 {
      JoinMarkFree(sep, xs[1..]);
    }
  }

  lemma EndsWithPrepend(p: string, s: string, suffix: string)
    requires EndsWith(s, suffix)
    ensures EndsWith(p + s, suffix)
  {
    assert (p + s)[|p + s| - |suffix|..] == s[|s| - |suffix|..];
  }

  /** Gluing text onto the first piece does not disturb the pairing. */
  lemma PairsGlue(p: string, pieces: seq<string>, keys: seq<string>)
    requires PairsWith(pieces, keys)
    ensures PairsWith([p + pieces[0]] + pieces[1..], keys)
  {
    var pieces' := [p + pieces[0]] + pieces[1..];
    if |keys| > 0 {
      EndsWithPrepend(p, pieces[0], keys[0] + " = ");
    }
    forall i | 0 <= i < |keys|
      ensures EndsWith(pieces'[i], keys[i] + " = ")
    {
      if i > 0 {
        assert pieces'[i] == pieces[i];
      }
    }
  }

  /** A placeholder-free prefix does not disturb the pairing. */
  lemma PairsPrefix(p: string, s: string, keys: seq<string>)
    requires MarkFree(p)
    requires PairsWith(Split(s, Mark), keys)
    ensures PairsWith(Split(p + s, Mark), keys)
  {
    SplitPrefix(p, s, Mark);
    PairsGlue(p, Split(s, Mark), keys);
  }

  /** A piece ending in `key = ` in front of a pairing extends it by `key`. */
  lemma PairsCons(head: string, pieces: seq<string>, k: string, keys: seq<string>)
    requires EndsWith(head, k + " = ")
    requires PairsWith(pieces, keys)
    ensures PairsWith([head] + pieces, [k] + keys)
  {
    var pieces' := [head] + pieces;
    var keys' := [k] + keys;
    forall i | 0 <= i < |keys'|
      ensures EndsWith(pieces'[i], keys'[i] + " = ")
    {
      if i > 0 {
        assert pieces'[i] == pieces[i - 1];
        assert keys'[i] == keys[i - 1];
      }
    }
  }

  /** The first `key = ?` item, split off from the joined items. */
  lemma JoinAssignmentsHead(sep: string, keys: seq<string>, rest: string)
    requires |keys| > 0
    ensures |keys| == 1 ==>
      Join(sep, Assignments(keys)) + rest == keys[0] + " = " + [Mark] + rest
    ensures |keys| > 1 ==>
      Join(sep, Assignments(keys)) + rest
        == keys[0] + " = " + [Mark] + (sep + (Join(sep, Assignments(keys[1..])) + rest))
  {
    var items := Assignments(keys);
    assert items[0] == Assign(keys[0]);
    if |keys| > 1 {
      assert items[1..] == Assignments(keys[1..]);
    }
  }

  /** The joined `key = ?` items pair with their keys, followed by whatever
      the rest of the SQL pairs with. */
  lemma {:induction false} PairsAssignments(sep: string, keys: seq<string>, rest: string, more: seq<string>)
    requires MarkFree(sep) && AllMarkFree(keys)
    requires PairsWith(Split(rest, Mark), more)
    ensures PairsWith(Split(Join(sep, Assignments(keys)) + rest, Mark), keys + more)
  {
    if |keys| == 0 {
      assert Join(sep, Assignments(keys)) + rest == rest;
      assert keys + more == more;
    } else {
      var k := keys[0];
      var ks := keys[1..];
      var head := k + " = ";
      assert MarkFree(head);
      JoinAssignmentsHead(sep, keys, rest);
      var tail: string;
      if |ks| == 0 {
        tail := rest;
        assert ks + more == more;
      } else {
        tail := sep + (Join(sep, Assignments(ks)) + rest);
        PairsAssignments(sep, ks, rest, more);
        PairsPrefix(sep, Join(sep, Assignments(ks)) + rest, ks + more);
      }
      assert Join(sep, Assignments(keys)) + rest == head + [Mark] + tail;
      SplitAtMark(head, tail, Mark);
      assert PairsWith(Split(tail, Mark), ks + more);
      PairsCons(head, Split(tail, Mark), k, ks + more);
      assert keys + more == [k] + (ks + more);
    }
  }

  /** Unfolds the first of `n >= 2` joined placeholders. */
  lemma JoinMarksUnfold(sep: string, n: nat, rest: string)
    requires n >= 2
    ensures Join(sep, Marks(n)) + rest == [Mark] + (sep + (Join(sep, Marks(n - 1)) + rest))
  {
    var xs := Marks(n);
    assert xs[0] == [Mark];
    assert xs[1..] == Marks(n - 1);
    assert Join(sep, xs) == xs[0] + sep + Join(sep, xs[1..]);
  }

  /** A placeholder, then a separator glued onto text whose first piece is
      empty. */
  lemma MarkThenSeparator(sep: string, inner: string)
    requires MarkFree(sep) && Split(inner, Mark)[0] == ""
    ensures Split([Mark] + (sep + inner), Mark) == [""] + ([sep] + Split(inner, Mark)[1..])
  {
    SplitAtMark("", sep + inner, Mark);
    assert "" + [Mark] + (sep + inner) == [Mark] + (sep + inner);
    SplitPrefix(sep, inner, Mark);
    assert sep + Split(inner, Mark)[0] == sep;
  }

  lemma SplitOneMark(sep: string, rest: string)
    ensures Split(Join(sep, Marks(1)) + rest, Mark) == [""] + Repeat(sep, 0) + Split(rest, Mark)
  {
    assert Join(sep, Marks(1)) + rest == "" + [Mark] + rest;
    SplitAtMark("", rest, Mark);
    assert Repeat(sep, 0) == [];
  }

  lemma ConsRepeat(sep: string, k: nat, t: seq<string>)
    ensures [""] + ([sep] + (Repeat(sep, k) + t)) == [""] + Repeat(sep, k + 1) + t
  {
    assert [sep] + Repeat(sep, k) == Repeat(sep, k + 1);
  }

  /** The pieces of a run of `n >= 1` bare placeholders joined by `sep`. */
  lemma {:induction false} SplitMarks(sep: string, n: nat, rest: string)
    requires n >= 1 && MarkFree(sep)
    ensures Split(Join(sep, Marks(n)) + rest, Mark) == [""] + Repeat(sep, n - 1) + Split(rest, Mark)
  {
    if n == 1 {
      SplitOneMark(sep, rest);
    } else {
      var inner := Join(sep, Marks(n - 1)) + rest;
      var t := Split(rest, Mark);
      SplitMarks(sep, n - 1, rest);
      var s := Split(inner, Mark);
      assert s == [""] + (Repeat(sep, n - 2) + t);
      assert s[0] == "" && s[1..] == Repeat(sep, n - 2) + t;
      JoinMarksUnfold(sep, n, rest);
      MarkThenSeparator(sep, inner);
      ConsRepeat(sep, n - 2, t);
    }
  }

  // ------------------------------------------------------- exact pieces

  /** The text each `key = ?` item contributes before its `?` once the
      items are joined by `sep`: the first item `key = `, every later one
      `sep` then `key = `. */
  function ItemHeads(sep: string, keys: seq<string>): (hs: seq<string>)
    ensures |hs| == |keys|
    ensures |keys| > 0 ==> hs[0] == keys[0] + " = "
    ensures forall i :: 0 < i < |keys| ==> hs[i] == sep + keys[i] + " = "
  {
    if |keys| == 0 then [] else [keys[0] + " = "] + LaterHeads(sep, keys[1..])
  }

  /** The heads of items that each follow a separator. */
  function LaterHeads(sep: string, keys: seq<string>): (hs: seq<string>)
    ensures |hs| == |keys|
    ensures forall i :: 0 <= i < |keys| ==> hs[i] == sep + keys[i] + " = "
  {
    if |keys| == 0 then [] else [sep + keys[0] + " = "] + LaterHeads(sep, keys[1..])
  }

  /** `p` glued onto the first of some pieces. */
  function Glue(p: string, pieces: seq<string>): (r: seq<string>)
    requires |pieces| > 0
    ensures |r| == |pieces|
    ensures r[0] == p + pieces[0]
    ensures forall i :: 0 < i < |pieces| ==> r[i] == pieces[i]
  {
    [p + pieces[0]] + pieces[1..]
  }

  /** Gluing twice is gluing the two prefixes at once. */
  lemma GlueTwice(p: string, q: string, pieces: seq<string>)
    requires |pieces| > 0
    ensures Glue(p, Glue(q, pieces)) == Glue(p + q, pieces)
  {
    assert p + (q + pieces[0]) == p + q + pieces[0];
  }

  /** A placeholder-free prefix glues onto the first piece. */
  lemma GluePrefix(p: string, s: string)
    requires MarkFree(p)
    ensures Split(p + s, Mark) == Glue(p, Split(s, Mark))
  {
    SplitPrefix(p, s, Mark);
  }

  /** The heads of two or more items: the first key's, then the rest's
      with the separator glued onto their first. */
  lemma ItemHeadsCons(sep: string, keys: seq<string>)
    requires |keys| >= 2
    ensures ItemHeads(sep, keys) == [keys[0] + " = "] + Glue(sep, ItemHeads(sep, keys[1..]))
  {
    var ks := keys[1..];
    assert ItemHeads(sep, ks) == [ks[0] + " = "] + LaterHeads(sep, ks[1..]);
    assert sep + (ks[0] + " = ") == sep + ks[0] + " = ";
    assert Glue(sep, ItemHeads(sep, ks)) == LaterHeads(sep, ks);
  }

  /** Gluing onto a non-empty prefix of the pieces. */
  lemma GlueAppend(p: string, a: seq<string>, b: seq<string>)
    requires |a| > 0
    ensures Glue(p, a + b) == Glue(p, a) + b
  {
    assert (a + b)[0] == a[0];
    assert (a + b)[1..] == a[1..] + b;
  }

  /** A head, a placeholder, then a separator in front of more text. */
  lemma SplitItem(head: string, sep: string, more: string)
    requires MarkFree(head) && MarkFree(sep)
    ensures Split(head + [Mark] + (sep + more), Mark) == [head] + Glue(sep, Split(more, Mark))
  {
    SplitAtMark(head, sep + more, Mark);
    GluePrefix(sep, more);
  }

  /** One more item in front: its head, then the pieces of the others with
      the separator glued on. */
  lemma ItemPiecesStep(sep: string, keys: seq<string>, rest: string)
    requires MarkFree(sep) && |keys| >= 2 && MarkFree(keys[0])
    requires Split(Join(sep, Assignments(keys[1..])) + rest, Mark)
      == ItemHeads(sep, keys[1..]) + Split(rest, Mark)
    ensures Split(Join(sep, Assignments(keys)) + rest, Mark) == ItemHeads(sep, keys) + Split(rest, Mark)
  {
    var head := keys[0] + " = ";
    var joined := Join(sep, Assignments(keys[1..])) + rest;
    var heads := ItemHeads(sep, keys[1..]);
    var pieces := Split(rest, Mark);
    calc {
      Split(Join(sep, Assignments(keys)) + rest, Mark);
      { JoinAssignmentsHead(sep, keys, rest); }
      Split(head + [Mark] + (sep + joined), Mark);
      { assert MarkFree(head); SplitItem(head, sep, joined); }
      [head] + Glue(sep, heads + pieces);
      { GlueAppend(sep, heads, pieces); }
      [head] + (Glue(sep, heads) + pieces);
      ([head] + Glue(sep, heads)) + pieces;
      { ItemHeadsCons(sep, keys); }
      ItemHeads(sep, keys) + pieces;
    }
  }

  /** The pieces of joined `key = ?` items followed by `rest`: one head per
      key, then the pieces of `rest`. */
  lemma {:induction false} ItemPieces(sep: string, keys: seq<string>, rest: string)
    requires MarkFree(sep) && AllMarkFree(keys)
    ensures Split(Join(sep, Assignments(keys)) + rest, Mark) == ItemHeads(sep, keys) + Split(rest, Mark)
  {
    if |keys| == 0 {
      assert Join(sep, Assignments(keys)) + rest == rest;
      assert ItemHeads(sep, keys) == [];
    } else if |keys| == 1 {
      var head := keys[0] + " = ";
      assert MarkFree(head);
      JoinAssignmentsHead(sep, keys, rest);
      SplitAtMark(head, rest, Mark);
      assert "" + keys[0] + " = " == head;
      assert ItemHeads(sep, keys) == [head];
    } else {
      var ks := keys[1..];
      assert AllMarkFree(ks) by {
        forall i | 0 <= i < |ks| ensures MarkFree(ks[i]) {
          assert ks[i] == keys[i + 1];
        }
      }
      ItemPieces(sep, ks, rest);
      ItemPiecesStep(sep, keys, rest);
    }
  }

  /** The pieces of a clause `p` followed by `key = ?` items joined by
      `sep`, one by one. */
  lemma GluedItemsShape(p: string, sep: string, keys: seq<string>)
    ensures var ps := Glue(p, ItemHeads(sep, keys) + [""]);
      && |ps| == |keys| + 1
      && (|keys| > 0 ==> ps[0] == p + keys[0] + " = ")
      && (forall i :: 0 < i < |keys| ==> ps[i] == sep + keys[i] + " = ")
      && (|keys| > 0 ==> ps[|keys|] == "")
      && (|keys| == 0 ==> ps == [p])
  {
    var inner := ItemHeads(sep, keys) + [""];
    var ps := Glue(p, inner);
    if |keys| > 0 {
      assert ps[0] == p + ("" + keys[0] + " = ");
      assert ps[|keys|] == inner[|keys|];
    } else {
      assert inner == [""];
      assert p + "" == p;
    }
    forall i | 0 < i < |keys| ensures ps[i] == sep + keys[i] + " = " {
      assert ps[i] == inner[i];
    }
  }
}

=== FILE: text.dfy ===
/** String helpers: `implode`, character counting, splitting at a character,
    ASCII case folding and decimal rendering, with the facts the SQL builders
    rely on. */
module Text {

  /** `implode(sep, xs)`. */
  function Join(sep: string, xs: seq<string>): string
  {
    if |xs| == 0 then ""
    else if |xs| == 1 then xs[0]
    else xs[0] + sep + Join(sep, xs[1..])
  }

  /** The number of occurrences of `c` in `s`. */
  function Count(s: string, c: char): nat
  {
    if |s| == 0 then 0
    else (if s[0] == c then 1 else 0) + Count(s[1..], c)
  }

  /** The pieces of `s` between occurrences of `c`: one more piece than
      there are occurrences. */
  function Split(s: string, c: char): (parts: seq<string>)
    ensures |parts| == Count(s, c) + 1
  {
    if |s| == 0 then [""]
    else
      var rest := Split(s[1..], c);
      if s[0] == c then [""] + rest
      else [[s[0]] + rest[0]] + rest[1..]
  }

  predicate EndsWith(s: string, suffix: string)
  {
    |suffix| <= |s| && s[|s| - |suffix|..] == suffix
  }

  /** Splitting and re-joining with the same character gives back the
      string. */
  lemma {:induction false} SplitJoin(s: string, c: char)
    ensures Join([c], Split(s, c)) == s
  {
    if |s| == 0 {
    } else {
      var rest := Split(s[1..], c);
      SplitJoin(s[1..], c);
      assert Join([c], rest) == s[1..];
      if s[0] == c {
        assert Split(s, c) == [""] + rest;
        assert |rest| >= 1;
        assert ([""] + rest)[1..] == rest;
        assert s == [s[0]] + s[1..];
      } else {
        var parts := Split(s, c);
        assert parts == [[s[0]] + rest[0]] + rest[1..];
        if |rest| == 1 {
          assert Join([c], rest) == rest[0];
          assert s == [s[0]] + s[1..];
        } else {
          assert Join([c], rest) == rest[0] + [c] + Join([c], rest[1..]);
          assert parts[1..] == rest[1..];
          assert s == [s[0]] + s[1..];
        }
      }
    }
  }

  /** A prefix free of `c` glues onto the first piece. */
  lemma {:induction false} SplitPrefix(p: string, s: string, c: char)
    requires c !in p
    ensures Split(p + s, c) == [p + Split(s, c)[0]] + Split(s, c)[1..]
  {
    if |p| == 0 {
      var parts := Split(s, c);
      assert p + s == s && p + parts[0] == parts[0];
      assert [parts[0]] + parts[1..] == parts;
    } else {
      SplitPrefix(p[1..], s, c);
      assert (p + s)[0] == p[0];
      assert (p + s)[1..] == p[1..] + s;
      assert [p[0]] + (p[1..] + Split(s, c)[0]) == p + Split(s, c)[0];
    }
  }

  /** An occurrence of `c` after a `c`-free prefix closes that prefix as a
      piece. */
  lemma SplitAtMark(a: string, b: string, c: char)
    requires c !in a
    ensures Split(a + [c] + b, c) == [a] + Split(b, c)
  {
    SplitPrefix(a, [c] + b, c);
    assert ([c] + b)[0] == c && ([c] + b)[1..] == b;
    var tail := Split([c] + b, c);
    assert tail == [""] + Split(b, c);
    assert tail[0] == "" && tail[1..] == Split(b, c);
    assert a + tail[0] == a;
    assert a + [c] + b == a + ([c] + b);
  }

  /** Text without `c` is a single piece. */
  lemma SplitFree(s: string, c: char)
    requires c !in s
    ensures Split(s, c) == [s]
  {
    SplitPrefix(s, "", c);
    assert s + "" == s;
  }

  /** ASCII lower-casing, the folding PHP applies to method names. */
  function Lower(s: string): (r: string)
    ensures |r| == |s|
  {
    if |s| == 0 then "" else [LowerChar(s[0])] + Lower(s[1..])
  }

  function LowerChar(ch: char): char
  {
    if 'A' <= ch <= 'Z' then (ch as int - 'A' as int + 'a' as int) as char else ch
  }

  /** Lower-casing twice is lower-casing once, so a lower-cased name is its
      own case-folded form. */
  lemma {:induction false} LowerIdempotent(s: string)
    ensures Lower(Lower(s)) == Lower(s)
  {
    if |s| > 0 {
      var t := Lower(s);
      assert t[0] == LowerChar(s[0]) && t[1..] == Lower(s[1..]);
      LowerIdempotent(s[1..]);
      assert LowerChar(LowerChar(s[0])) == LowerChar(s[0]);
    }
  }

  /** Decimal digits of a natural number. */
  function NatToString(n: nat): (r: string)
    ensures |r| >= 1
    ensures forall i :: 0 <= i < |r| ==> '0' <= r[i] <= '9'
  {
    if n < 10 then [Digit(n)] else NatToString(n / 10) + [Digit(n % 10)]
  }

  function Digit(d: nat): (ch: char)
    requires d < 10
    ensures '0' <= ch <= '9'
  {
    ['0', '1', '2', '3', '4', '5', '6', '7', '8', '9'][d]
  }

  /** The decimal rendering PHP gives an integer. */
  function IntToString(i: int): string
  {
    if i < 0 then "-" + NatToString(-i) else NatToString(i)
  }
}
